=== FILE: README.md ===
# Service discovery and resilient HTTP client

A Dafny model of the service-discovery and inter-service HTTP layer of a
FastAPI microservice boilerplate. Two Python files make up this layer.

- `core/discovery.py`:
  - registers and deregisters services with a Consul-style registry;
  - looks up the instances of a logical service through a per-name cache with
    a time-to-live (TTL);
  - asks the registry whether a service's checks pass;
  - runs a health sweep that probes each listed service and files its name
    under either "healthy" or "unhealthy".
- `core/http_client.py`:
  - an HTTP client that retries 5xx/429 responses and transport errors with
    exponential backoff or the server's `Retry-After` value;
  - a service client that resolves a service name to an instance URL before
    sending through that client.

## How the model is built

- `wrappers.dfy` (`Wrappers`): `Option` and `Result`.
- `text.dfy` (`Text`): `str.endswith`, `str.startswith`, `str.rstrip("/")`
  and the decimal formatting of an `int`.
- `urls.dfy` (`Urls`): the parts of Python's `urllib.parse` that the core
  calls, defined for every input:
  - `Parse` is `urlparse`: leading control characters and spaces are
    stripped, tabs and line breaks removed, then the scheme, the network
    location, the query, the fragment and (for schemes such as `http`) the
    `;params` of the last path segment are split off. A network location
    holding only one of `[` and `]` makes it raise `ValueError` (`None`).
  - `Join` is `urljoin`, with its scheme tables, path merging and
    dot-segment resolution.
  - Lemmas state what both give for the URLs the core builds or is given:
    `http://{host}{path}`, absolute and relative paths, `//host` paths,
    other schemes, a rejected URL.
- `discovery.dfy` (`Discovery`):
  - `ServiceDiscoveryClient` is a class. Its fields are the two dictionaries
    `servicesCache` and `lastCacheUpdate`, plus `sent`, the log of registry
    calls made.
  - `HealthChecker` is a class with the sets `healthyServices` and
    `unhealthyServices`.
  - The cache is also specified as a value. `Discover` gives what
    `discover_service` returns and the cache it leaves behind. The lemmas
    about TTL, refresh, failure and deregistration are stated on `Discover`.
  - The `DiscoverService` method is proved equal to `Discover`.
  - The sweep's loop is the method `HealthChecker.SweepNames`. Its contract
    says that each name is looked up as if on the cache the sweep started
    from, and that the registry is queried once for each stale name.
- `http_client.dfy` (`Http`):
  - The retry loop is the method `HttpClient.RequestWithRetry`. It is proved
    equal to `Run`, a recursive definition of the loop.
  - `RunCharacterised` then pins every attempt down: which attempts were
    retried, how long the sleep after each was, and why the last attempt
    ended the loop.
  - The transport client's headers follow the transport library (httpx),
    which compares header names regardless of ASCII case: `WithHeader`,
    `WithoutHeader` and `Updated` are its set, delete and update. It starts
    from the library's own headers (`LibraryHeaders`), updated with the
    given ones. The client's own `headers` dictionary compares names
    exactly.
  - `Sent` is the request as the transport library is given it: the
    client's default headers updated with the per-call headers.
  - `ServiceClient` is a class whose field `serviceInstances` is filled once
    by discovery.

External inputs are modelled as follows:

- **Registry.** A call to the registry takes its reply as an argument:
  `Reply<T> = Answer(status, body) | Raised`. The body is already decoded;
  `Raised` stands for any exception raised by the call.
- **Outbound requests.** The network is the oracle
  `Network = (HttpRequest, attempt) -> Outcome`, where
  `Outcome = Got(response) | TransportError(reason)`. A call's result is
  `Returned(response)` or `Threw(error)`.
- **Health probes.** A probe is a function from URL to `Reply<()>`.
- **Clock.** Time is an integer argument `now`.
- **Sleeps.** A sleep is recorded in milliseconds in the returned `Trace`
  instead of being taken.
- **Random choices.** `uuid.uuid4()` is an argument. `random.choice` is a
  nondeterministic pick (`:|`) of an index.

## Behaviour worth knowing

- **Register.** `register_service` succeeds only on status exactly 200, not
  on any 2xx status.
- **Stale cache after registration.** A lookup served from a still-fresh
  cache entry does not see a service registered since. So "after a
  successful registration, discovery returns the new id" holds only when the
  lookup reaches the registry. `RegisteredServiceDiscovered` proves it under
  that condition, and `FreshEntryHidesRegistration` shows the cached case.
- **Retry-After that is not a number.** A `Retry-After` header that
  `float()` cannot parse (for example the HTTP-date form allowed by section
  10.2.3 of RFC 9110) raises `ValueError` out of the retry loop. The call
  fails at once, with no retry (`InvalidRetryAfter`).
- **Request bodies.** The body wrappers forward `data` as `content` and
  `json` as `json`, both unchanged. Neither takes precedence in this code.
- **Health URL normalisation.** `/health` is also left off when the URL
  already ends in `/health`. Trailing slashes are stripped from the whole
  URL, not only from its path. Parameters after the root path still leave
  the path `/`, so `http://h/;p` is probed at `http://h/;p/health`. An
  endpoint `urlparse` rejects, such as `http://[h`, is reported unhealthy
  and nothing is probed.
- **Paths starting with `//`.** `urljoin` reads a request path `//other/x`
  as a network path, so the service client sends that request to the host
  `other`, not to the chosen instance.
- **Default headers.** `add_header` and `remove_header` change both the
  client's own map and the transport client's. Only the transport client's
  map reaches the network. There names match regardless of case:
  `remove_header("authorization")` stops `Authorization` being sent, while
  the client's own dictionary keeps it, and a per-call header replaces
  every default spelt differently. The library's own `Accept`,
  `Accept-Encoding`, `Connection` and `User-Agent` headers are sent too.

## Model

| member | source | states |
|---|---|---|
| `Discovery.NewInstance` | core/discovery.py:22-49 | a new instance keeps its id, name, address and port, gets empty tags and meta when none are given, is healthy and has never been checked |
| `Discovery.Instances` | core/discovery.py:199-211 | discovery builds exactly one instance per registry record, in the registry's order, each from that record |
| `Discovery.BuildInstances` | core/discovery.py:199-211 | the record-by-record loop produces exactly that list |
| `Discovery.HealthUrl` | core/discovery.py:359 | the URL built from an instance's address and port ends in `/health` |
| `Discovery.DefaultCheck` | core/discovery.py:123-129 | the default check polls `http://{address}:{port}/health` every 10s with a 5s timeout and deregisters after 1m |
| `Discovery.RegistrationPayload` | core/discovery.py:105-129 | every registration carries a non-empty id and a non-empty health check, with the given name, address and port |
| `Discovery.RegistrationDefaults` | core/discovery.py:106-129 | an absent or empty id becomes `{name}-{uuid}`; an absent or empty check becomes the default check; absent tags and meta become empty; given values are kept |
| `Discovery.ServiceDiscoveryClient.constructor` | core/discovery.py:71-78 | a new client has an empty cache and has made no registry call |
| `Discovery.ServiceDiscoveryClient.RegisterService` | core/discovery.py:105-146 | sends the built registration; true iff the registry answers 200, false on other statuses and on exceptions; the cache is untouched |
| `Discovery.ServiceDiscoveryClient.DeregisterService` | core/discovery.py:158-174 | sends the deregistration; on 200 both cache dictionaries are emptied and true is returned; otherwise false and the cache is unchanged |
| `Discovery.ServiceDiscoveryClient.ClearServiceCache` | core/discovery.py:294-297 | both cache dictionaries become empty |
| `Discovery.ServiceDiscoveryClient.IsCacheValid` | core/discovery.py:287-292 | invalid when no timestamp is recorded for the name, otherwise valid iff `now - last_update < cache_ttl` |
| `Discovery.ServiceDiscoveryClient.DiscoverService` | core/discovery.py:186-225 | returns the instances and leaves the cache exactly as `Discover` says, and queries the registry iff the entry is not fresh |
| `Discovery.ServiceDiscoveryClient.GetAllServices` | core/discovery.py:234-245 | returns the catalog on 200 and an empty map on any other status or exception |
| `Discovery.ServiceDiscoveryClient.CheckServiceHealth` | core/discovery.py:257-275 | true iff the registry answers 200 and every returned check has status "passing" (so no checks gives true); false on other statuses and exceptions |
| `Discovery.ChecksPassing` | core/discovery.py:265-268 | the loop over the checks answers true iff every check's status is "passing" |
| `Discovery.Discover` | core/discovery.py:186-225 | a lookup either leaves the name's entry as it was or sets it to the returned instances stamped `now`; no other name's entry changes; a stale entry with a failed query gives no instances |
| `Discovery.DiscoverHit` | core/discovery.py:188-189 | a valid entry is returned as cached, with no registry query and no change to either dictionary |
| `Discovery.DiscoverRefresh` | core/discovery.py:197-218 | on a miss with a 200, the name's entry becomes one instance per record, stamped `now`; every other name's entry is unchanged |
| `Discovery.DiscoverFailure` | core/discovery.py:219-225 | on a miss with a non-200 status or an exception the result is empty and both dictionaries are unchanged |
| `Discovery.DiscoverIsLocal` | core/discovery.py:213-215 | a lookup depends only on, and changes only, the entry of the name looked up |
| `Discovery.DiscoverKeepsCoherent` | core/discovery.py:213-215 | the two dictionaries keep holding entries for the same names |
| `Discovery.AtMostOneQueryWithinTtl` | core/discovery.py:188-215 | two lookups of one name less than `cache_ttl` apart query the registry at most once when a query that is made succeeds |
| `Discovery.ExpiredEntryQueries` | core/discovery.py:287-292 | once an entry is `cache_ttl` or more old, the next lookup queries the registry |
| `Discovery.FreshEntryHidesRegistration` | core/discovery.py:188-189 | a fresh cached empty list is served whatever the registry now lists |
| `Discovery.RegisteredServiceDiscovered` | core/discovery.py:192-218 | a lookup that reaches the registry and finds a registration listed returns an instance with its id, address and port |
| `Discovery.Cleared` | core/discovery.py:294-297 | the cleared cache is coherent (both dictionaries empty) |
| `Discovery.DeregisteredNotServedFromCache` | core/discovery.py:163-166 | after a deregistration the next lookup queries the registry, and returns the deregistered id only if the registry still lists it |
| `Text.TrimTrailingSlashes` | core/discovery.py:334 | `rstrip("/")` keeps the longest prefix that does not end in `/` and removes only slashes |
| `Urls.Parse` | core/discovery.py:332 | a successful `urlparse` yields a network location free of `/`, `?` and `#` that holds both brackets or neither |
| `Urls.ParseHttpUrl` | core/discovery.py:332-333 | `http://{host}{path}` parses into the scheme `http`, that host, and the path with the `;params` of its last segment split off, with no query or fragment |
| `Urls.SplitParamsAtRoot` | core/discovery.py:332-333 | the parameters of `/;{params}` are cut at the `;`, leaving the path `/` |
| `Urls.ParamsAfterRootPath` | core/discovery.py:332-333 | `http://{host}/;{params}` has the path `/` and the parameters `{params}` |
| `Urls.UnclosedBracketRejected` | core/discovery.py:332 | `urlparse` raises on `http://[{host}` when no `]` closes the bracket |
| `Discovery.NormalizeHealthUrl` | core/discovery.py:331-334 | a URL ending in `/health` is probed as given; no URL is probed only when `urlparse` raises; a probed URL is the endpoint itself or ends in `/health` |
| `Discovery.NormalizeHealthUrlCases` | core/discovery.py:331-334 | a URL already ending in `/health` is kept; otherwise a URL that `urlparse` rejects gives no URL, one whose path is `""` or `"/"` becomes its slash-stripped form plus `/health`, and any other is kept |
| `Discovery.NormalizeHealthUrlIdempotent` | core/discovery.py:331-334 | normalising twice gives the same URL as normalising once |
| `Discovery.InstanceHealthUrlUnchanged` | core/discovery.py:359-360 | the sweep's `http://{address}:{port}/health` URL is probed as built |
| `Discovery.HealthAppendedAfterParams` | core/discovery.py:331-334 | `http://{host}/;{params}` is probed at `http://{host}/;{params}/health`, because its path is `/` |
| `Discovery.UnclosedBracketNotProbed` | core/discovery.py:329-340 | `http://[{host}` yields no URL to probe and is reported unhealthy whatever the probe would say |
| `Discovery.HealthChecker.constructor` | core/discovery.py:314-317 | a new checker has no healthy and no unhealthy services |
| `Discovery.HealthChecker.CheckServiceEndpoint` | core/discovery.py:329-340 | false, with nothing probed, when `urlparse` raises on the endpoint; otherwise probes the normalised URL and is true iff it answers 200, false on other statuses and exceptions |
| `Discovery.HealthChecker.CheckService` | core/discovery.py:354-373 | looks the service up, probes only its first instance (no instance means unhealthy), and moves its name into exactly one of the two sets |
| `Discovery.SweepQueriesStep` | core/discovery.py:352-354 | one more lookup of a new name adds exactly the query that lookup makes to the sweep's registry calls |
| `Discovery.QueryLogSweep` | core/discovery.py:352-354 | lookups of distinct names, on one cache, query the registry exactly once for each name whose entry is stale and for nothing else |
| `Discovery.SweptStep` | core/discovery.py:352-373 | looking up a name the sweep has not visited gives the verdict and the cache entry a lookup on the starting cache gives, and leaves every other entry alone |
| `Discovery.FiledStep` | core/discovery.py:363-373 | filing one more verdict keeps each visited name in exactly the set its verdict names and every other name where it was |
| `Discovery.HealthChecker.SweepNames` | core/discovery.py:352-373 | visits every name once: each verdict and cache entry is that of a lookup on the starting cache, the sets follow the verdicts, and the registry calls are the lookups' queries in visiting order |
| `Discovery.HealthChecker.CheckAllServices` | core/discovery.py:349-379 | every listed service maps to its first instance's probe verdict and sits in exactly one of the two disjoint sets; unlisted names keep their membership and cache entries; a failed catalog query gives an empty result; the registry is asked for the catalog and then exactly once for each listed name whose entry was stale, and nothing else |
| `Discovery.HealthChecker.IsServiceHealthy` | core/discovery.py:391 | a service reported healthy is not in the unhealthy set |
| `Http.Backoff` | core/http_client.py:97 | the backoff after attempt `k` is `100 * 2^k` ms, at least 100 ms |
| `Http.BackoffDoubles` | core/http_client.py:107 | each backoff is twice the previous one |
| `Http.Run` | core/http_client.py:89-117 | with `retries >= 0` the loop makes between 1 and `retries + 1` attempts and sleeps once between consecutive attempts |
| `Http.RunCharacterised` | core/http_client.py:91-111 | every attempt but the last was retryable (a transport error, or a 5xx/429 with a parsable or absent Retry-After, before the final attempt) and was followed by its Retry-After value or `100 * 2^attempt` ms; the last attempt was not retryable and gives the result: response returned, transport error re-raised |
| `Http.NoAttemptIffNegativeRetries` | core/http_client.py:113-117 | the fall-through RuntimeError, and zero requests, happen iff `retries < 0` |
| `Http.NonRetryableReturnedAtOnce` | core/http_client.py:95-102 | a response that is neither 5xx nor 429 is returned after one attempt with no sleep |
| `Http.ServerErrorsExhausted` | core/http_client.py:95-102 | 5xx/429 on every attempt gives `retries + 1` attempts with exponential sleeps, and the final response is returned, not raised |
| `Http.TransportErrorsExhausted` | core/http_client.py:103-111 | a transport error on every attempt gives `retries + 1` attempts with exponential sleeps, and the last error is raised |
| `Http.RetryAfterHonoured` | core/http_client.py:96-100 | a retried 5xx/429 carrying Retry-After is followed by a sleep of exactly that value |
| `Http.ServiceUnavailableThreeRetries` | core/http_client.py:91-102 | three retries against a service that answers 503 make four requests, sleep 100, 200 and 400 ms, and return the last 503 |
| `Http.HttpClient.constructor` | core/http_client.py:36-48 | the client's own dictionary is the given headers, or empty; the transport client's headers are the library's own defaults updated with the given headers |
| `Http.WithHeader` | core/http_client.py:63 | setting a transport-client header leaves it under the given name with the given value, drops every other spelling of that name, and keeps every other header |
| `Http.WithoutHeader` | core/http_client.py:74-75 | deleting a transport-client header drops every entry whose name matches regardless of case and keeps the rest; nothing changes when none matches |
| `Http.Updated` | core/http_client.py:43-48 | updating a header map keeps every new header as given, and an old header exactly when no new name matches it regardless of case |
| `Http.HttpClient.AddHeader` | core/http_client.py:62-63 | sets the exact name in the client's own dictionary, and the name in the transport client's headers in place of every other spelling of it |
| `Http.HttpClient.RemoveHeader` | core/http_client.py:72-75 | deletes the exact name from the client's own dictionary and every spelling of it from the transport client's headers, a no-op where absent |
| `Http.RemoveUndoesAdd` | core/http_client.py:54-75 | removing a header that neither map knew when it was added restores both maps |
| `Http.AddedHeaderSent` | core/http_client.py:62-63 | after `add_header`, a request whose own headers do not name it sends the header under the added name and value, and under no other spelling |
| `Http.RemovedHeaderNotSent` | core/http_client.py:72-75 | after `remove_header`, a request whose own headers do not name it sends the header in no spelling |
| `Http.Sent` | core/http_client.py:93 | the request put on the network carries every per-call header as given, every default header no per-call name matches regardless of case, and the call's other arguments unchanged |
| `Http.HttpClient.RequestWithRetry` | core/http_client.py:89-117 | the loop's result, sleeps and number of requests are exactly those of `Run` on the request with the transport client's default headers merged in |
| `Http.HttpClient.Get` | core/http_client.py:131 | sends GET with the params and headers and no body through the retry loop |
| `Http.HttpClient.Post` | core/http_client.py:146 | sends POST with `data` as content and `json` as JSON, unchanged, through the retry loop |
| `Http.HttpClient.Put` | core/http_client.py:161 | sends PUT with `data` as content and `json` as JSON, unchanged, through the retry loop |
| `Http.HttpClient.Patch` | core/http_client.py:176 | sends PATCH with `data` as content and `json` as JSON, unchanged, through the retry loop |
| `Http.HttpClient.Delete` | core/http_client.py:189 | sends DELETE with headers only, no body, through the retry loop |
| `Urls.Join` | core/http_client.py:279 | an empty base gives the path and an empty path the base; otherwise the join raises exactly when `urlparse` raises on the base or on the path |
| `Urls.JoinAbsolutePath` | core/http_client.py:279 | an absolute path replaces the base URL's path: `http://{host}` + `/p` is `http://{host}/p` |
| `Urls.JoinRelativePath` | core/http_client.py:279 | a relative path is resolved under the root: `http://{host}` + `p` is `http://{host}/p` |
| `Urls.JoinNetworkPath` | core/http_client.py:279 | a path `//{other}{p}` replaces the host: the result is `http://{other}{p}` |
| `Urls.JoinForeignScheme` | core/http_client.py:279 | a URL with another scheme is returned unchanged |
| `Urls.JoinRejects` | core/http_client.py:279 | a path that `urlparse` rejects makes the join raise |
| `Http.InstanceUrl` | core/http_client.py:278-279 | an empty path gives `http://{address}:{port}` itself |
| `Http.InstanceUrlAbsolutePath` | core/http_client.py:278-279 | an absolute path is appended to `http://{address}:{port}` |
| `Http.InstanceUrlRelativePath` | core/http_client.py:278-279 | a relative path is appended after `http://{address}:{port}/` |
| `Http.InstanceUrlNetworkPath` | core/http_client.py:278-279 | a path `//{other}{p}` sends the request to `http://{other}{p}`, away from the instance |
| `Http.InstanceUrlRejects` | core/http_client.py:278-279 | a path `urlparse` rejects gives no URL (the `ValueError`) |
| `Http.ServiceClient.constructor` | core/http_client.py:237-241 | a new service client has no instances |
| `Http.ServiceClient.DiscoverInstances` | core/http_client.py:258-260 | the instance list becomes the discovery result, and the registry is queried exactly when the cache entry is stale; an empty result is the "no instances" error |
| `Http.ServiceClient.GetServiceUrl` | core/http_client.py:273-279 | discovery, with its one registry query when the entry is stale, runs only while the list is empty, so a populated list is never refreshed and the registry is not asked; the URL is the join for a member of the list; no instances gives the "no instances" error, and a join that raises the `ValueError` |
| `Http.ServiceClient.Request` | core/http_client.py:293-297 | the request, with the default headers merged in, goes through the retry loop to the joined URL of an instance of the list; it fails with "no instances" or the join's `ValueError` without making a request; registry queries are as for `GetServiceUrl` |

## Left out

- Real HTTP, the Consul API and JSON decoding. Registry replies and
  responses are arguments carrying already-decoded bodies.
- Registry URLs. The registry base URL (`http://{host}:{port}/v1`) and the
  request URLs are not built. Each call is recorded as a `RegistryCall`
  naming its endpoint.
- Incomplete registry records. A record lacking its "Service" object, or
  lacking fields in it, is not modelled. Records are complete `ServiceInfo`
  values, and meta values are strings.
- Badly shaped catalog bodies. A catalog body that is not a dictionary is
  not modelled. It would be caught by the sweep's outer `except`. Bodies are
  typed.
- Logging, timeouts, `follow_redirects` and `max_connections`. They change
  no result in this model.
- Python default argument values (address `localhost`, port 8000, 3
  retries, a 30s TTL). Callers pass every value.
- `close()`, the module-level singletons (`get_http_client`,
  `get_service_discovery_client`, `get_health_checker`, the `close_*`
  functions) and `ServiceClient.init`. They are lifecycle plumbing; the
  service client is built with its collaborators.
- The `get`, `post`, `put` and `delete` methods of `ServiceClient`. Each is
  `Request` with a fixed verb, and shares the gap of `Request` below.
- `Http.ServiceClient.Request`: of the keyword arguments `request` forwards
  to the transport library, only `params`, `headers`, `content` and `json`
  are modelled. Others such as `data`, `files`, `cookies`, `auth`,
  `timeout`, `follow_redirects` and `extensions` are dropped, so two calls
  that differ only in them reach the network as the same request.
- `Http.Sent`: the headers the transport library adds when it builds the
  request are not modelled: `Host` from the URL, `Content-Length` (`0` for
  a POST, PUT or PATCH without a body), `Content-Type` for a JSON body, and
  `Cookie` from the client's cookie jar. The jar keeps cookies that earlier
  responses set, which is state this model does not carry.
- `last_discovered`. The source never reads it.
- Backoff in seconds. Durations are integer milliseconds; `float` seconds
  are not modelled.
- Sleeping itself. The sleeps are recorded, not taken.
- `Http.HttpClient.constructor`: `self.headers` is the caller's own
  dictionary when one is given, so a later change by either side shows in
  the other; the model copies it. Header maps are unordered here, and the
  transport library's repeated entries for one name (from per-call headers
  differing only in case) are separate keys.
- `Urls.Parse`: two checks of `urlsplit` are not modelled, so such URLs
  parse here where Python raises `ValueError`:
  - a host in brackets that `_check_bracketed_host` rejects: a bracketed
    IPv4 address, an IPv6 address that does not parse, or a malformed
    IPvFuture (`v...`) address; well-formed IPv6 and IPvFuture hosts parse
    in both;
  - a non-ASCII network location whose NFKC form gains one of `/ ? # @ :`
    (`_checknetloc`); one that NFKC changes in other ways parses in both.
  Newer Python versions also reject text before `[` or between `]` and the
  port; that is not modelled either. The `scheme` argument is not sanitised.
  `PathOf`, the path of `Parse`, yields a path for these URLs too, where
  Python raises.
- `Discovery.HealthChecker.CheckServiceEndpoint`: for an endpoint that does
  not end in `/health` and is one of the URLs just listed, it probes the
  URL, where Python returns false without a request. Endpoints ending in
  `/health` skip `urlparse` in both.
- `Urls.Unparse`: writes `//` only for a non-empty network location or a
  network scheme, as `urlunsplit` long did; the newer rule that also keeps
  an empty `//` the original URL had is not modelled.
- `Urls.Join`: its contract says only when it raises; what it returns is
  proved by lemmas for the paths a service client is given (absolute,
  relative, `//host`, another scheme, rejected), not for query-only,
  fragment-only or dot-segment paths, whose results are defined but not
  characterised.
- Interleaving of concurrent coroutines around the cache. The code has no
  locking and each operation is modelled as atomic.
- `Discovery.ServiceDiscoveryClient.DiscoverService` takes a single clock
  reading, whereas the source reads the clock once for the validity check
  and again, after the reply arrives, for the timestamp.
- `Discovery.HealthChecker.CheckAllServices` uses one clock reading for the
  whole sweep and visits names in an unspecified order, not in the order of
  the catalog's keys. It states exactly which registry calls are made but
  not their order.

=== FILE: discovery.dfy ===
/**
 * Service registration, cached discovery and health checking against a
 * Consul-style registry (core/discovery.py).
 *
 * The registry is not called: every operation that talks to it takes the
 * reply as a parameter and records the call it would have made in the
 * client's `sent` log. Time is an integer clock reading `now`, in the unit
 * of `cacheTtl`.
 */
module Discovery {
  import opened Wrappers
  import opened Text
  import opened Urls

  /**
   * What one HTTP call to the registry (or to a health endpoint) gives:
   * a status code with the already-decoded JSON body, or an exception
   * (connection failure, timeout, undecodable body).
   */
  datatype Reply<T> = Answer(status: int, body: T) | Raised

  predicate IsOk<T>(reply: Reply<T>)
  {
    reply.Answer? && reply.status == 200
  }

  /** The body sent to `PUT /v1/agent/service/register`. */
  datatype Registration = Registration(
    id: string,
    name: string,
    address: string,
    port: int,
    tags: seq<string>,
    meta: map<string, string>,
    check: map<string, string>)

  /** The registry endpoints the client calls, with their arguments. */
  datatype RegistryCall =
    | RegisterCall(payload: Registration)       // PUT /v1/agent/service/register
    | DeregisterCall(serviceId: string)         // PUT /v1/agent/service/deregister/{id}
    | HealthServiceQuery(serviceName: string)   // GET /v1/health/service/{name}?passing=true
    | CatalogQuery                              // GET /v1/catalog/services
    | HealthChecksQuery(serviceId: string)      // GET /v1/health/checks/{id}

  /** The "Service" object of one record returned by the health-service query. */
  datatype ServiceInfo = ServiceInfo(
    id: string,
    service: string,
    address: string,
    port: int,
    tags: Option<seq<string>>,
    meta: Option<map<string, string>>)

  /** One record of the health-checks query; `status` is its "Status" field, if any. */
  datatype HealthCheck = HealthCheck(status: Option<string>)

  /** One running copy of a logical service. */
  datatype ServiceInstance = ServiceInstance(
    serviceId: string,
    serviceName: string,
    address: string,
    port: int,
    tags: seq<string>,
    meta: map<string, string>,
    healthy: bool,
    lastCheckTime: Option<int>)

  // ---------------------------------------------------------------------
  // Instances and URLs
  // ---------------------------------------------------------------------

  /** The `ServiceInstance` constructor: missing tags and meta become empty; a new instance is healthy and never checked. */
  function NewInstance(
    serviceId: string, serviceName: string, address: string, port: int,
    tags: Option<seq<string>>, meta: Option<map<string, string>>): (inst: ServiceInstance)
    ensures inst.healthy && inst.lastCheckTime == None
    ensures tags == None ==> inst.tags == []
    ensures meta == None ==> inst.meta == map[]
    ensures inst.serviceId == serviceId && inst.serviceName == serviceName
    ensures inst.address == address && inst.port == port
  {
    ServiceInstance(serviceId, serviceName, address, port,
      if tags.Some? then tags.value else [],
      if meta.Some? then meta.value else map[],
      true, None)
  }

  /** The instance that discovery builds from one registry record. */
  function InstanceOf(info: ServiceInfo): ServiceInstance
  {
    NewInstance(info.id, info.service, info.address, info.port, info.tags, info.meta)
  }

  /** One instance per record, in the registry's order. */
  function Instances(infos: seq<ServiceInfo>): (xs: seq<ServiceInstance>)
    ensures |xs| == |infos|
    ensures forall i :: 0 <= i < |infos| ==> xs[i] == InstanceOf(infos[i])
  {
    if infos == [] then [] else [InstanceOf(infos[0])] + Instances(infos[1..])
  }

  /** The loop of `discover_service` that turns the registry's records into instances. */
  method BuildInstances(infos: seq<ServiceInfo>) returns (xs: seq<ServiceInstance>)
    ensures xs == Instances(infos)
  {
    xs := [];
    for i := 0 to |infos|
      invariant |xs| == i
      invariant forall k :: 0 <= k < i ==> xs[k] == InstanceOf(infos[k])
    {
      xs := xs + [InstanceOf(infos[i])];
    }
  }

  /** `http://{address}:{port}` */
  function BaseUrl(address: string, port: int): string
  {
    "http://" + address + ":" + IntToString(port)
  }

  /** `http://{address}:{port}/health` */
  function HealthUrl(address: string, port: int): (url: string)
    ensures EndsWith(url, "/health")
  {
    EndsWithAppended(BaseUrl(address, port), "/health");
    BaseUrl(address, port) + "/health"
  }

  // ---------------------------------------------------------------------
  // Registration
  // ---------------------------------------------------------------------

  /** The health check registered when the caller gives none: HTTP GET of `/health` every 10s, 5s timeout, deregistered after 1m critical. */
  function DefaultCheck(address: string, port: int): (check: map<string, string>)
    ensures check.Keys == {"HTTP", "Interval", "Timeout", "DeregisterCriticalServiceAfter"}
    ensures check["HTTP"] == HealthUrl(address, port)
    ensures check["Interval"] == "10s" && check["Timeout"] == "5s"
    ensures check["DeregisterCriticalServiceAfter"] == "1m"
  {
    map["HTTP" := HealthUrl(address, port), "Interval" := "10s", "Timeout" := "5s",
        "DeregisterCriticalServiceAfter" := "1m"]
  }

  /**
   * The registration body `register_service` builds. Python's truthiness
   * decides the defaults: an absent or empty id, tag list, meta map or
   * check counts as not given.
   */
  function RegistrationPayload(
    name: string, id: Option<string>, address: string, port: int,
    tags: Option<seq<string>>, meta: Option<map<string, string>>,
    check: Option<map<string, string>>, uuid: string): (p: Registration)
    ensures p.id != "" && p.check != map[]
    ensures p.name == name && p.address == address && p.port == port
  {
    var serviceId := if id.Some? && id.value != "" then id.value else name + "-" + uuid;
    Registration(
      serviceId, name, address, port,
      if tags.Some? then tags.value else [],
      if meta.Some? then meta.value else map[],
      if check.Some? && check.value != map[] then check.value else DefaultCheck(address, port))
  }

  lemma RegistrationDefaults(
    name: string, id: Option<string>, address: string, port: int,
    tags: Option<seq<string>>, meta: Option<map<string, string>>,
    check: Option<map<string, string>>, uuid: string)
    ensures var p := RegistrationPayload(name, id, address, port, tags, meta, check, uuid);
      && (id == None || id == Some("") ==> p.id == name + "-" + uuid && StartsWith(p.id, name + "-"))
      && (id.Some? && id.value != "" ==> p.id == id.value)
      && (check == None || check == Some(map[]) ==> p.check == DefaultCheck(address, port))
      && (check.Some? && check.value != map[] ==> p.check == check.value)
      && (tags == None ==> p.tags == [])
      && (tags.Some? ==> p.tags == tags.value)
      && (meta == None ==> p.meta == map[])
      && (meta.Some? ==> p.meta == meta.value)
  {
    var generated := name + "-" + uuid;
    assert generated[..|name + "-"|] == name + "-";
  }

  // ---------------------------------------------------------------------
  // The service cache, as a value
  // ---------------------------------------------------------------------

  /** The two dictionaries `services_cache` and `last_cache_update`. */
  datatype Cache = Cache(services: map<string, seq<ServiceInstance>>, stamps: map<string, int>)

  /** Both dictionaries have an entry for the same names. */
  predicate Coherent(c: Cache)
  {
    c.services.Keys == c.stamps.Keys
  }

  /** `_is_cache_valid`: a stamp exists and is younger than the TTL. */
  predicate Fresh(stamps: map<string, int>, ttl: int, name: string, now: int)
  {
    name in stamps && now - stamps[name] < ttl
  }

  /** What the cache holds for one name, in both dictionaries. */
  function Entry(c: Cache, name: string): (Option<seq<ServiceInstance>>, Option<int>)
  {
    (if name in c.services then Some(c.services[name]) else None,
     if name in c.stamps then Some(c.stamps[name]) else None)
  }

  /**
   * `discover_service` on a cache value: the instances it returns and the
   * cache after it. A fresh entry is served as it is; otherwise the
   * registry's reply decides: a 200 overwrites the entry and stamps it with
   * `now`, anything else gives no instances and leaves the cache alone.
   */
  function Discover(c: Cache, ttl: int, name: string, now: int, reply: Reply<seq<ServiceInfo>>)
    : (r: (seq<ServiceInstance>, Cache))
    ensures Entry(r.1, name) == Entry(c, name) || Entry(r.1, name) == (Some(r.0), Some(now))
    ensures forall other :: other != name ==> Entry(r.1, other) == Entry(c, other)
    ensures !Fresh(c.stamps, ttl, name, now) && !IsOk(reply) ==> r.0 == []
  {
    if Fresh(c.stamps, ttl, name, now) then
      (if name in c.services then c.services[name] else [], c)
    else if IsOk(reply) then
      var xs := Instances(reply.body);
      (xs, Cache(c.services[name := xs], c.stamps[name := now]))
    else
      ([], c)
  }

  /** Whether `discover_service` asks the registry: exactly when the entry is not fresh. */
  function Queries(c: Cache, ttl: int, name: string, now: int): (n: nat)
  {
    if Fresh(c.stamps, ttl, name, now) then 0 else 1
  }

  lemma DiscoverHit(c: Cache, ttl: int, name: string, now: int, reply: Reply<seq<ServiceInfo>>)
    requires Coherent(c) && Fresh(c.stamps, ttl, name, now)
    ensures Discover(c, ttl, name, now, reply) == (c.services[name], c)
    ensures Queries(c, ttl, name, now) == 0
  {
  }

  lemma DiscoverRefresh(c: Cache, ttl: int, name: string, now: int, reply: Reply<seq<ServiceInfo>>)
    requires !Fresh(c.stamps, ttl, name, now) && IsOk(reply)
    ensures var (xs, c') := Discover(c, ttl, name, now, reply);
      && |xs| == |reply.body|
      && (forall i :: 0 <= i < |xs| ==> xs[i] == InstanceOf(reply.body[i]))
      && Entry(c', name) == (Some(xs), Some(now))
      && (forall other :: other != name ==> Entry(c', other) == Entry(c, other))
  {
  }

  lemma DiscoverFailure(c: Cache, ttl: int, name: string, now: int, reply: Reply<seq<ServiceInfo>>)
    requires !Fresh(c.stamps, ttl, name, now) && !IsOk(reply)
    ensures Discover(c, ttl, name, now, reply) == ([], c)
  {
  }

  /** Discovery of one name depends on and changes only that name's entry. */
  lemma DiscoverIsLocal(c: Cache, d: Cache, ttl: int, name: string, now: int, reply: Reply<seq<ServiceInfo>>)
    requires Entry(c, name) == Entry(d, name)
    ensures Discover(c, ttl, name, now, reply).0 == Discover(d, ttl, name, now, reply).0
    ensures Entry(Discover(c, ttl, name, now, reply).1, name) == Entry(Discover(d, ttl, name, now, reply).1, name)
    ensures forall other :: other != name ==> Entry(Discover(c, ttl, name, now, reply).1, other) == Entry(c, other)
    ensures Queries(c, ttl, name, now) == Queries(d, ttl, name, now)
  {
    assert (name in c.stamps) == (name in d.stamps);
    assert (name in c.services) == (name in d.services);
  }

  lemma DiscoverKeepsCoherent(c: Cache, ttl: int, name: string, now: int, reply: Reply<seq<ServiceInfo>>)
    requires Coherent(c)
    ensures Coherent(Discover(c, ttl, name, now, reply).1)
  {
  }

  /**
   * Two lookups of one name less than `ttl` apart ask the registry at most
   * once, provided the first one, if it asks, is answered with a 200.
   */
  lemma AtMostOneQueryWithinTtl(
    c: Cache, ttl: int, name: string, now1: int, now2: int,
    reply1: Reply<seq<ServiceInfo>>)
    requires now1 <= now2 < now1 + ttl
    requires IsOk(reply1)
    ensures var c1 := Discover(c, ttl, name, now1, reply1).1;
      Queries(c, ttl, name, now1) + Queries(c1, ttl, name, now2) <= 1
  {
  }

  /** Once the entry is older than the TTL, the next lookup asks the registry. */
  lemma ExpiredEntryQueries(c: Cache, ttl: int, name: string, now: int)
    requires name in c.stamps && now - c.stamps[name] >= ttl
    ensures Queries(c, ttl, name, now) == 1
  {
  }

  /** A fresh cache entry hides a later registration: the cached list is served even if the registry now lists more. */
  lemma FreshEntryHidesRegistration(ttl: int, name: string, now: int, reply: Reply<seq<ServiceInfo>>)
    requires ttl > 0
    ensures var c := Cache(map[name := []], map[name := now]);
      Discover(c, ttl, name, now, reply).0 == []
  {
  }

  /** The record the registry lists for a registered service. */
  function ListingOf(p: Registration): ServiceInfo
  {
    ServiceInfo(p.id, p.name, p.address, p.port, Some(p.tags), Some(p.meta))
  }

  /**
   * After a registration, a lookup that reaches the registry and finds the
   * service listed returns an instance with the registered id, address and port.
   */
  lemma RegisteredServiceDiscovered(c: Cache, ttl: int, now: int, p: Registration, infos: seq<ServiceInfo>)
    requires !Fresh(c.stamps, ttl, p.name, now)
    requires ListingOf(p) in infos
    ensures exists inst :: (inst in Discover(c, ttl, p.name, now, Answer(200, infos)).0
      && inst.serviceId == p.id && inst.address == p.address && inst.port == p.port)
  {
    var xs := Discover(c, ttl, p.name, now, Answer(200, infos)).0;
    var i :| 0 <= i < |infos| && infos[i] == ListingOf(p);
    assert xs[i] in xs;
  }

  /** The cache after `_clear_service_cache`. */
  function Cleared(): (c: Cache)
    ensures Coherent(c)
  {
    Cache(map[], map[])
  }

  /**
   * After a deregistration the cache is empty, so the next lookup of any
   * name asks the registry and returns only what it lists now: an instance
   * of the deregistered id can come back only if the registry still lists it.
   */
  lemma DeregisteredNotServedFromCache(
    ttl: int, name: string, now: int, serviceId: string, reply: Reply<seq<ServiceInfo>>)
    requires IsOk(reply) ==> forall info :: info in reply.body ==> info.id != serviceId
    ensures Queries(Cleared(), ttl, name, now) == 1
    ensures forall inst :: inst in Discover(Cleared(), ttl, name, now, reply).0 ==> inst.serviceId != serviceId
  {
    var xs := Discover(Cleared(), ttl, name, now, reply).0;
    forall inst | inst in xs
      ensures inst.serviceId != serviceId
    {
      var i :| 0 <= i < |xs| && xs[i] == inst;
      assert reply.body[i] in reply.body;
    }
  }

  // ---------------------------------------------------------------------
  // Health checks
  // ---------------------------------------------------------------------

  predicate AllPassing(checks: seq<HealthCheck>)
  {
    forall i :: 0 <= i < |checks| ==> checks[i].status == Some("passing")
  }

  /** The loop of `check_service_health`: stops at the first check whose status is not "passing". */
  method ChecksPassing(checks: seq<HealthCheck>) returns (passing: bool)
    ensures passing <==> forall i :: 0 <= i < |checks| ==> checks[i].status == Some("passing")
  {
    for i := 0 to |checks|
      invariant forall k :: 0 <= k < i ==> checks[k].status == Some("passing")
    {
      if checks[i].status != Some("passing") {
        return false;
      }
    }
    return true;
  }

  /**
   * The URL `check_service_endpoint` probes, or `None` when `urlparse`
   * raises on the endpoint, so that the check fails without a request. An
   * endpoint already ending in `/health` is probed as given; otherwise one
   * whose path is empty or `/` gets its trailing slashes stripped and
   * `/health` appended, and any other endpoint is probed as given.
   */
  function NormalizeHealthUrl(endpoint: string): (url: Option<string>)
    ensures EndsWith(endpoint, "/health") ==> url == Some(endpoint)
    ensures url.None? ==> PathOf(endpoint).None?
    ensures url.Some? ==> url.value == endpoint || EndsWith(url.value, "/health")
  {
    if EndsWith(endpoint, "/health") then Some(endpoint)
    else if PathOf(endpoint).None? then None
    else if PathOf(endpoint).value == "" || PathOf(endpoint).value == "/" then
      EndsWithAppended(TrimTrailingSlashes(endpoint), "/health");
      Some(TrimTrailingSlashes(endpoint) + "/health")
    else Some(endpoint)
  }

  lemma NormalizeHealthUrlCases(endpoint: string)
    ensures EndsWith(endpoint, "/health") ==> NormalizeHealthUrl(endpoint) == Some(endpoint)
    ensures !EndsWith(endpoint, "/health") && PathOf(endpoint).None? ==> NormalizeHealthUrl(endpoint) == None
    ensures !EndsWith(endpoint, "/health") && PathOf(endpoint) in {Some(""), Some("/")} ==>
      NormalizeHealthUrl(endpoint) == Some(TrimTrailingSlashes(endpoint) + "/health")
    ensures PathOf(endpoint).Some? && PathOf(endpoint).value !in {"", "/"} ==> NormalizeHealthUrl(endpoint) == Some(endpoint)
  {
  }

  lemma NormalizeHealthUrlIdempotent(endpoint: string)
    ensures NormalizeHealthUrl(endpoint).Some? ==>
      NormalizeHealthUrl(NormalizeHealthUrl(endpoint).value) == NormalizeHealthUrl(endpoint)
  {
  }

  /** The URL the sweep builds for an instance, and the default registered check URL, are probed unchanged. */
  lemma InstanceHealthUrlUnchanged(address: string, port: int)
    ensures NormalizeHealthUrl(HealthUrl(address, port)) == Some(HealthUrl(address, port))
  {
  }

  /** A URL with a character that `/health` lacks, after which no `/` follows, cannot end in `/health`. */
  lemma NoHealthSuffix(url: string, k: int)
    requires 0 <= k < |url| && url[k] !in {'/', 'h', 'e', 'a', 'l', 't'}
    requires forall j :: k < j < |url| ==> url[j] != '/'
    ensures !EndsWith(url, "/health")
  {
    if |url| >= 7 {
      var j := |url| - 7;
      var tail := url[j..];
      if j <= k {
        // the character would be one of those of `/health`
        assert tail[k - j] == url[k];
      } else {
        // the `/` of `/health` would follow it
        assert tail[0] == url[j];
      }
    }
  }

  /**
   * Parameters after the root path still count as the root, so `/health`
   * is appended after them: `http://h/;p` is probed at `http://h/;p/health`.
   */
  lemma {:induction false} HealthAppendedAfterParams(h: string, params: string)
    requires PlainHost(h)
    requires forall i :: 0 <= i < |params| ==> params[i] !in {'/', '?', '#', '\t', '\r', '\n'}
    ensures NormalizeHealthUrl("http://" + h + "/;" + params) == Some("http://" + h + "/;" + params + "/health")
  {
    var url := "http://" + h + "/;" + params;
    ParamsAfterRootPath(h, params);
    assert PathOf(url) == Some("/");
    ParamsUrlEnd(h, params);
  }

  /** `http://h/;p` neither ends in `/health` nor in a slash. */
  lemma ParamsUrlEnd(h: string, params: string)
    requires '/' !in params
    ensures var url := "http://" + h + "/;" + params;
      !EndsWith(url, "/health") && TrimTrailingSlashes(url) == url
  {
    var base := "http://" + h;
    var url := base + "/;" + params;
    assert url == base + ("/;" + params);
    var k := |base| + 1;
    assert url[k] == ';';
    forall j | k < j < |url|
      ensures url[j] != '/'
    {
      assert url[j] == params[j - k - 1];
    }
    NoHealthSuffix(url, k);
    assert url[|url| - 1] != '/';
  }

  /**
   * An endpoint whose network location opens a bracket it never closes
   * makes `urlparse` raise, so no URL is probed: `http://[h` is unhealthy.
   */
  lemma UnclosedBracketNotProbed(h: string, probe: string -> Reply<()>)
    requires PlainHost(h)
    ensures NormalizeHealthUrl("http://[" + h) == None
    ensures !EndpointHealthy("http://[" + h, probe)
  {
    var url := "http://[" + h;
    UnclosedBracketRejected(h);
    assert url[7] == '[';
    forall j | 7 < j < |url|
      ensures url[j] != '/'
    {
      assert url[j] == h[j - 8];
    }
    NoHealthSuffix(url, 7);
  }

  /** The verdict of `check_service_endpoint` for a probe oracle keyed by URL: false, with no request, when `urlparse` raises. */
  predicate EndpointHealthy(endpoint: string, probe: string -> Reply<()>)
  {
    NormalizeHealthUrl(endpoint).Some? && IsOk(probe(NormalizeHealthUrl(endpoint).value))
  }

  /**
   * The sweep's verdict for one service: its first instance answers 200 on
   * `/health`; no instance means unhealthy. (The URL is probed as built, see
   * `InstanceHealthUrlUnchanged`.)
   */
  predicate SweepVerdict(instances: seq<ServiceInstance>, probe: string -> Reply<()>)
  {
    instances != [] && IsOk(probe(HealthUrl(instances[0].address, instances[0].port)))
  }

  /**
   * The registry calls of a sweep after its catalog query: one
   * health-service query for each listed name whose cache entry was stale,
   * and nothing else.
   */
  ghost predicate SweepQueries(log: seq<RegistryCall>, names: set<string>, c: Cache, ttl: int, now: int)
  {
    && (forall i :: 0 <= i < |log| ==> log[i].HealthServiceQuery?)
    && (forall n :: multiset(log)[HealthServiceQuery(n)] == if n in names && !Fresh(c.stamps, ttl, n, now) then 1 else 0)
  }

  /** Looking one more name up extends the log by the query that lookup makes. */
  lemma SweepQueriesStep(log: seq<RegistryCall>, names: set<string>, c: Cache, ttl: int, now: int, name: string)
    requires SweepQueries(log, names, c, ttl, now) && name !in names
    ensures SweepQueries(log + (if Queries(c, ttl, name, now) == 0 then [] else [HealthServiceQuery(name)]),
      names + {name}, c, ttl, now)
  {
    var log' := log + (if Queries(c, ttl, name, now) == 0 then [] else [HealthServiceQuery(name)]);
    assert multiset(log') == multiset(log) + multiset(if Queries(c, ttl, name, now) == 0 then [] else [HealthServiceQuery(name)]);
    forall i | 0 <= i < |log'|
      ensures log'[i].HealthServiceQuery?
    {
      if i < |log| {
        assert log'[i] == log[i];
      }
    }
  }

  /** The registry calls of lookups of `order`, one after another, each on the cache `c`. */
  function QueryLog(order: seq<string>, c: Cache, ttl: int, now: int): (log: seq<RegistryCall>)
    ensures |log| <= |order|
  {
    if order == [] then []
    else
      var name := order[|order| - 1];
      QueryLog(order[..|order| - 1], c, ttl, now) + (if Queries(c, ttl, name, now) == 0 then [] else [HealthServiceQuery(name)])
  }

  /** Lookups of distinct names query the registry once for each stale name among them and for nothing else. */
  lemma {:induction false} QueryLogSweep(order: seq<string>, names: set<string>, c: Cache, ttl: int, now: int)
    requires forall i, j :: 0 <= i < j < |order| ==> order[i] != order[j]
    requires forall n :: n in order <==> n in names
    ensures SweepQueries(QueryLog(order, c, ttl, now), names, c, ttl, now)
  {
    if order == [] {
      assert names == {};
    } else {
      var prefix, name := order[..|order| - 1], order[|order| - 1];
      assert order == prefix + [name];
      QueryLogSweep(prefix, names - {name}, c, ttl, now);
      SweepQueriesStep(QueryLog(prefix, c, ttl, now), names - {name}, c, ttl, now, name);
      assert names - {name} + {name} == names;
    }
  }

  /** One more lookup, of a name not yet looked up, extends the log and the order by that name. */
  lemma QueryLogStep(
    log0: seq<RegistryCall>, sent: seq<RegistryCall>, order: seq<string>, status: map<string, bool>,
    c: Cache, ttl: int, now: int, name: string, verdict: bool)
    requires forall n :: n in order <==> n in status
    requires forall i, j :: 0 <= i < j < |order| ==> order[i] != order[j]
    requires name !in status
    requires sent == log0 + QueryLog(order, c, ttl, now)
      + (if Queries(c, ttl, name, now) == 0 then [] else [HealthServiceQuery(name)])
    ensures sent == log0 + QueryLog(order + [name], c, ttl, now)
    ensures forall n :: n in order + [name] <==> n in status[name := verdict]
    ensures forall i, j :: 0 <= i < j < |order + [name]| ==> (order + [name])[i] != (order + [name])[j]
  {
    assert (order + [name])[..|order|] == order;
  }

  /**
   * After a sweep has looked up the names in `status`, starting from the
   * cache `c0`: each verdict is that of a lookup on `c0`, each looked-up
   * entry is what that lookup leaves, and every other entry is untouched.
   */
  ghost predicate Swept(
    status: map<string, bool>, c: Cache, c0: Cache, ttl: int, now: int,
    lookup: string -> Reply<seq<ServiceInfo>>, probe: string -> Reply<()>)
  {
    && (forall n :: n in status ==> status[n] == SweepVerdict(Discover(c0, ttl, n, now, lookup(n)).0, probe))
    && (forall n :: n in status ==> Entry(c, n) == Entry(Discover(c0, ttl, n, now, lookup(n)).1, n))
    && (forall n :: n !in status ==> Entry(c, n) == Entry(c0, n))
  }

  /** Looking up one more name on the current cache acts as a lookup on `c0` would. */
  lemma SweptStep(
    status: map<string, bool>, c: Cache, c0: Cache, ttl: int, now: int,
    lookup: string -> Reply<seq<ServiceInfo>>, probe: string -> Reply<()>, name: string)
    requires Swept(status, c, c0, ttl, now, lookup, probe) && name !in status
    ensures var (xs, c') := Discover(c, ttl, name, now, lookup(name));
      Swept(status[name := SweepVerdict(xs, probe)], c', c0, ttl, now, lookup, probe)
    ensures Queries(c, ttl, name, now) == Queries(c0, ttl, name, now)
  {
    DiscoverIsLocal(c, c0, ttl, name, now, lookup(name));
    var (xs, c') := Discover(c, ttl, name, now, lookup(name));
    var status' := status[name := SweepVerdict(xs, probe)];
    forall n | n in status'
      ensures status'[n] == SweepVerdict(Discover(c0, ttl, n, now, lookup(n)).0, probe)
      ensures Entry(c', n) == Entry(Discover(c0, ttl, n, now, lookup(n)).1, n)
    {
    }
    forall n | n !in status'
      ensures Entry(c', n) == Entry(c0, n)
    {
    }
  }

  /** The health sets agree with the verdicts in `status` and are as they were for every other name. */
  ghost predicate Filed(
    status: map<string, bool>, healthy: set<string>, unhealthy: set<string>,
    healthy0: set<string>, unhealthy0: set<string>)
  {
    && (forall n :: n in status ==> (n in healthy <==> status[n]) && (n in unhealthy <==> !status[n]))
    && (forall n :: n !in status ==> (n in healthy <==> n in healthy0) && (n in unhealthy <==> n in unhealthy0))
  }

  lemma FiledStep(
    status: map<string, bool>, healthy: set<string>, unhealthy: set<string>,
    healthy0: set<string>, unhealthy0: set<string>, name: string, verdict: bool)
    requires Filed(status, healthy, unhealthy, healthy0, unhealthy0)
    ensures Filed(status[name := verdict],
      if verdict then healthy + {name} else healthy - {name},
      if verdict then unhealthy - {name} else unhealthy + {name},
      healthy0, unhealthy0)
  {
  }

  // ---------------------------------------------------------------------
  // The discovery client
  // ---------------------------------------------------------------------

  class ServiceDiscoveryClient {
    const cacheTtl: int
    var servicesCache: map<string, seq<ServiceInstance>>
    var lastCacheUpdate: map<string, int>
    /** The registry calls made so far, oldest first. */
    var sent: seq<RegistryCall>

    predicate Valid()
      reads this
    {
      Coherent(Snapshot())
    }

    function Snapshot(): Cache
      reads this
    {
      Cache(servicesCache, lastCacheUpdate)
    }

    constructor(cacheTtl: int)
      ensures Valid()
      ensures this.cacheTtl == cacheTtl
      ensures servicesCache == map[] && lastCacheUpdate == map[] && sent == []
    {
      this.cacheTtl := cacheTtl;
      servicesCache := map[];
      lastCacheUpdate := map[];
      sent := [];
    }

    method RegisterService(
      name: string, id: Option<string>, address: string, port: int,
      tags: Option<seq<string>>, meta: Option<map<string, string>>,
      check: Option<map<string, string>>, uuid: string, reply: Reply<()>)
      returns (ok: bool)
      modifies this`sent
      ensures ok <==> IsOk(reply)
      ensures sent == old(sent) + [RegisterCall(RegistrationPayload(name, id, address, port, tags, meta, check, uuid))]
    {
      var payload := RegistrationPayload(name, id, address, port, tags, meta, check, uuid);
      sent := sent + [RegisterCall(payload)];
      ok := IsOk(reply);
    }

    method DeregisterService(serviceId: string, reply: Reply<()>) returns (ok: bool)
      requires Valid()
      modifies this
      ensures Valid()
      ensures sent == old(sent) + [DeregisterCall(serviceId)]
      ensures ok <==> IsOk(reply)
      ensures ok ==> Snapshot() == Cleared()
      ensures !ok ==> Snapshot() == old(Snapshot())
    {
      sent := sent + [DeregisterCall(serviceId)];
      if IsOk(reply) {
        ClearServiceCache();
        ok := true;
      } else {
        ok := false;
      }
    }

    method DiscoverService(name: string, now: int, reply: Reply<seq<ServiceInfo>>)
      returns (instances: seq<ServiceInstance>)
      requires Valid()
      modifies this
      ensures Valid()
      ensures (instances, Snapshot()) == Discover(old(Snapshot()), cacheTtl, name, now, reply)
      ensures sent == old(sent) + (if Queries(old(Snapshot()), cacheTtl, name, now) == 0 then [] else [HealthServiceQuery(name)])
    {
      if IsCacheValid(name, now) {
        instances := if name in servicesCache then servicesCache[name] else [];
        return;
      }
      sent := sent + [HealthServiceQuery(name)];
      if IsOk(reply) {
        instances := BuildInstances(reply.body);
        servicesCache := servicesCache[name := instances];
        lastCacheUpdate := lastCacheUpdate[name := now];
      } else {
        instances := [];
      }
    }

    method GetAllServices(reply: Reply<map<string, seq<string>>>) returns (services: map<string, seq<string>>)
      modifies this`sent
      ensures sent == old(sent) + [CatalogQuery]
      ensures services == if IsOk(reply) then reply.body else map[]
    {
      sent := sent + [CatalogQuery];
      services := if IsOk(reply) then reply.body else map[];
    }

    method CheckServiceHealth(serviceId: string, reply: Reply<seq<HealthCheck>>) returns (healthy: bool)
      modifies this`sent
      ensures sent == old(sent) + [HealthChecksQuery(serviceId)]
      ensures healthy <==> IsOk(reply) && AllPassing(reply.body)
    {
      sent := sent + [HealthChecksQuery(serviceId)];
      if IsOk(reply) {
        healthy := ChecksPassing(reply.body);
      } else {
        healthy := false;
      }
    }

    function IsCacheValid(name: string, now: int): (valid: bool)
      reads this
      ensures name !in lastCacheUpdate ==> !valid
      ensures name in lastCacheUpdate ==> (valid <==> now - lastCacheUpdate[name] < cacheTtl)
    {
      Fresh(lastCacheUpdate, cacheTtl, name, now)
    }

    method ClearServiceCache()
      modifies this`servicesCache, this`lastCacheUpdate
      ensures Valid() && Snapshot() == Cleared()
    {
      servicesCache := map[];
      lastCacheUpdate := map[];
    }
  }

  // ---------------------------------------------------------------------
  // The health checker
  // ---------------------------------------------------------------------

  class HealthChecker {
    const discovery: ServiceDiscoveryClient
    var healthyServices: set<string>
    var unhealthyServices: set<string>

    /** No service is both healthy and unhealthy. */
    predicate Valid()
      reads this
    {
      healthyServices !! unhealthyServices
    }

    constructor(discovery: ServiceDiscoveryClient)
      ensures Valid()
      ensures this.discovery == discovery
      ensures healthyServices == {} && unhealthyServices == {}
    {
      this.discovery := discovery;
      healthyServices := {};
      unhealthyServices := {};
    }

    method CheckServiceEndpoint(endpoint: string, probe: string -> Reply<()>) returns (ok: bool)
      ensures NormalizeHealthUrl(endpoint).None? ==> !ok
      ensures NormalizeHealthUrl(endpoint).Some? ==> (ok <==> IsOk(probe(NormalizeHealthUrl(endpoint).value)))
    {
      var url := NormalizeHealthUrl(endpoint);
      if url.None? {
        return false;
      }
      var response := probe(url.value);
      ok := response.Answer? && response.status == 200;
    }

    method CheckAllServices(
      now: int,
      catalog: Reply<map<string, seq<string>>>,
      lookup: string -> Reply<seq<ServiceInfo>>,
      probe: string -> Reply<()>)
      returns (status: map<string, bool>)
      requires Valid() && discovery.Valid()
      modifies this, discovery
      ensures Valid() && discovery.Valid()
      ensures status.Keys == if IsOk(catalog) then catalog.body.Keys else {}
      ensures forall n :: n in status ==>
        status[n] == SweepVerdict(Discover(old(discovery.Snapshot()), discovery.cacheTtl, n, now, lookup(n)).0, probe)
      ensures forall n :: n in status ==>
        (n in healthyServices <==> status[n]) && (n in unhealthyServices <==> !status[n])
      ensures forall n :: n !in status ==>
        (n in healthyServices <==> n in old(healthyServices)) && (n in unhealthyServices <==> n in old(unhealthyServices))
      ensures forall n :: n in status ==>
        Entry(discovery.Snapshot(), n) == Entry(Discover(old(discovery.Snapshot()), discovery.cacheTtl, n, now, lookup(n)).1, n)
      ensures forall n :: n !in status ==> Entry(discovery.Snapshot(), n) == Entry(old(discovery.Snapshot()), n)
      ensures |discovery.sent| > |old(discovery.sent)|
      ensures discovery.sent[..|old(discovery.sent)| + 1] == old(discovery.sent) + [CatalogQuery]
      ensures SweepQueries(discovery.sent[|old(discovery.sent)| + 1..], status.Keys, old(discovery.Snapshot()), discovery.cacheTtl, now)
    {
      var all := discovery.GetAllServices(catalog);
      ghost var c0 := discovery.Snapshot();
      ghost var log0 := discovery.sent;
      ghost var order;
      status, order := SweepNames(all.Keys, now, lookup, probe);
      QueryLogSweep(order, status.Keys, c0, discovery.cacheTtl, now);
      assert discovery.sent[|log0|..] == QueryLog(order, c0, discovery.cacheTtl, now);
    }

    /**
     * The loop of `check_all_services`: every name is looked up and filed
     * once, in the order `order`, each lookup acting on the cache as it was
     * when the loop began.
     */
    method SweepNames(
      names: set<string>, now: int,
      lookup: string -> Reply<seq<ServiceInfo>>,
      probe: string -> Reply<()>)
      returns (status: map<string, bool>, ghost order: seq<string>)
      requires Valid() && discovery.Valid()
      modifies this, discovery
      ensures Valid() && discovery.Valid()
      ensures status.Keys == names
      ensures Swept(status, discovery.Snapshot(), old(discovery.Snapshot()), discovery.cacheTtl, now, lookup, probe)
      ensures Filed(status, healthyServices, unhealthyServices, old(healthyServices), old(unhealthyServices))
      ensures discovery.sent == old(discovery.sent) + QueryLog(order, old(discovery.Snapshot()), discovery.cacheTtl, now)
      ensures forall n :: n in order <==> n in names
      ensures forall i, j :: 0 <= i < j < |order| ==> order[i] != order[j]
    {
      ghost var c0 := discovery.Snapshot();
      ghost var log0 := discovery.sent;
      ghost var healthy0, unhealthy0 := healthyServices, unhealthyServices;
      order := [];
      status := map[];
      var todo := names;
      while todo != {}
        invariant todo <= names
        invariant status.Keys == names - todo
        invariant Valid() && discovery.Valid()
        invariant Swept(status, discovery.Snapshot(), c0, discovery.cacheTtl, now, lookup, probe)
        invariant Filed(status, healthyServices, unhealthyServices, healthy0, unhealthy0)
        invariant discovery.sent == log0 + QueryLog(order, c0, discovery.cacheTtl, now)
        invariant forall n :: n in order <==> n in status
        invariant forall i, j :: 0 <= i < j < |order| ==> order[i] != order[j]
        decreases todo
      {
        var name :| name in todo;
        var isHealthy := SweepOne(name, now, lookup, probe, status, order, c0, log0, healthy0, unhealthy0);
        order := order + [name];
        status := status[name := isHealthy];
        todo := todo - {name};
      }
    }

    /** One round of the sweep's loop, with the loop's invariants carried over to the name it adds. */
    method SweepOne(
      name: string, now: int,
      lookup: string -> Reply<seq<ServiceInfo>>,
      probe: string -> Reply<()>,
      ghost status: map<string, bool>, ghost order: seq<string>, ghost c0: Cache,
      ghost log0: seq<RegistryCall>, ghost healthy0: set<string>, ghost unhealthy0: set<string>)
      returns (isHealthy: bool)
      requires Valid() && discovery.Valid()
      requires name !in status
      requires Swept(status, discovery.Snapshot(), c0, discovery.cacheTtl, now, lookup, probe)
      requires Filed(status, healthyServices, unhealthyServices, healthy0, unhealthy0)
      requires discovery.sent == log0 + QueryLog(order, c0, discovery.cacheTtl, now)
      requires forall n :: n in order <==> n in status
      requires forall i, j :: 0 <= i < j < |order| ==> order[i] != order[j]
      modifies this, discovery
      ensures Valid() && discovery.Valid()
      ensures Swept(status[name := isHealthy], discovery.Snapshot(), c0, discovery.cacheTtl, now, lookup, probe)
      ensures Filed(status[name := isHealthy], healthyServices, unhealthyServices, healthy0, unhealthy0)
      ensures discovery.sent == log0 + QueryLog(order + [name], c0, discovery.cacheTtl, now)
      ensures forall n :: n in order + [name] <==> n in status[name := isHealthy]
      ensures forall i, j :: 0 <= i < j < |order + [name]| ==> (order + [name])[i] != (order + [name])[j]
    {
      ghost var before := discovery.Snapshot();
      SweptStep(status, before, c0, discovery.cacheTtl, now, lookup, probe, name);
      FiledStep(status, healthyServices, unhealthyServices, healthy0, unhealthy0, name,
        SweepVerdict(Discover(before, discovery.cacheTtl, name, now, lookup(name)).0, probe));
      isHealthy := CheckService(name, now, lookup(name), probe);
      QueryLogStep(log0, discovery.sent, order, status, c0, discovery.cacheTtl, now, name, isHealthy);
    }

    /** One round of the sweep's loop: look the service up, probe its first instance, and file its name. */
    method CheckService(name: string, now: int, reply: Reply<seq<ServiceInfo>>, probe: string -> Reply<()>)
      returns (isHealthy: bool)
      requires Valid() && discovery.Valid()
      modifies this, discovery
      ensures Valid() && discovery.Valid()
      ensures isHealthy == SweepVerdict(Discover(old(discovery.Snapshot()), discovery.cacheTtl, name, now, reply).0, probe)
      ensures discovery.Snapshot() == Discover(old(discovery.Snapshot()), discovery.cacheTtl, name, now, reply).1
      ensures discovery.sent == old(discovery.sent)
        + (if Queries(old(discovery.Snapshot()), discovery.cacheTtl, name, now) == 0 then [] else [HealthServiceQuery(name)])
      ensures healthyServices == if isHealthy then old(healthyServices) + {name} else old(healthyServices) - {name}
      ensures unhealthyServices == if isHealthy then old(unhealthyServices) - {name} else old(unhealthyServices) + {name}
    {
      var instances := discovery.DiscoverService(name, now, reply);
      isHealthy := false;
      if instances != [] {
        var instance := instances[0];
        InstanceHealthUrlUnchanged(instance.address, instance.port);
        isHealthy := CheckServiceEndpoint(HealthUrl(instance.address, instance.port), probe);
      }
      if isHealthy {
        healthyServices := healthyServices + {name};
        unhealthyServices := unhealthyServices - {name};
      } else {
        unhealthyServices := unhealthyServices + {name};
        healthyServices := healthyServices - {name};
      }
    }

    function IsServiceHealthy(name: string): (healthy: bool)
      reads this
      requires Valid()
      ensures healthy ==> name !in unhealthyServices
      ensures name in unhealthyServices ==> !healthy
    {
      name in healthyServices
    }
  }
}

=== FILE: http_client.dfy ===
/**
 * The resilient HTTP client and the service-to-service client built on it
 * (core/http_client.py).
 *
 * The network is an oracle `Network`: given the request and the attempt
 * number it yields a response or a transport error. Sleeping is not done
 * but recorded: each call returns the backoff durations, in milliseconds,
 * it would have slept.
 */
module Http {
  import opened Wrappers
  import opened Text
  import opened Urls
  import Discovery

  /** A `Retry-After` header: a number of seconds (here converted to milliseconds) or text `float()` rejects. */
  datatype RetryAfter = Delay(ms: int) | Unparsable

  /** `retryAfter` is None when the header is missing or empty. */
  datatype Response = Response(status: int, retryAfter: Option<RetryAfter>, body: string)

  /** What one attempt yields: a response, or an `httpx.RequestError`. */
  datatype Outcome = Got(response: Response) | TransportError(reason: string)

  /** The exceptions that can leave the client. */
  datatype Error =
    | Transport(reason: string)   // the last httpx.RequestError, re-raised
    | InvalidRetryAfter           // ValueError from float() on the Retry-After header
    | NoAttempt                   // RuntimeError when the loop runs zero times
    | NoInstances(service: string) // RuntimeError when discovery finds no instance
    | InvalidUrl                  // ValueError from urljoin on a malformed base or path

  datatype CallResult = Returned(response: Response) | Threw(error: Error)

  /** The arguments `_request_with_retry` hands to `client.request`. */
  datatype HttpRequest = HttpRequest(
    verb: string,
    url: string,
    params: Option<map<string, string>>,
    headers: Option<map<string, string>>,
    content: Option<string>,
    json: Option<string>)

  type Network = (HttpRequest, nat) -> Outcome

  // ---------------------------------------------------------------------
  // The transport client's headers
  // ---------------------------------------------------------------------

  /*
   * The transport client (httpx) keeps its headers in a map whose names it
   * compares with ASCII letters folded to lower case. A map here holds each
   * entry under the name it was last set with.
   */

  /** `name in headers` on the transport client's headers: some entry's name matches regardless of case. */
  predicate Named(h: map<string, string>, name: string)
  {
    exists k :: k in h && Lower(k) == Lower(name)
  }

  /** `del headers[name]` on the transport client's headers: every entry whose name matches regardless of case goes. */
  function WithoutHeader(h: map<string, string>, name: string): (r: map<string, string>)
    ensures !Named(r, name)
    ensures forall k :: k in r <==> k in h && Lower(k) != Lower(name)
    ensures forall k :: k in r ==> r[k] == h[k]
    ensures !Named(h, name) ==> r == h
  {
    map k | k in h && Lower(k) != Lower(name) :: h[k]
  }

  /** `headers[name] = value` on the transport client's headers: the entries matching `name` regardless of case give way to one under `name`. */
  function WithHeader(h: map<string, string>, name: string, value: string): (r: map<string, string>)
    ensures name in r && r[name] == value
    ensures forall k :: k in r && Lower(k) == Lower(name) ==> k == name
    ensures forall k :: k in r && k != name <==> k in h && Lower(k) != Lower(name)
    ensures forall k :: k in r && k != name ==> r[k] == h[k]
  {
    WithoutHeader(h, name)[name := value]
  }

  /** `headers.update(extra)`: the entries of `h` that no name of `extra` matches regardless of case, then all of `extra`. */
  function Updated(h: map<string, string>, extra: map<string, string>): (r: map<string, string>)
    ensures forall k :: k in r <==> k in extra || (k in h && !Named(extra, k))
    ensures forall k :: k in extra ==> r[k] == extra[k]
    ensures forall k :: k in r && k !in extra ==> r[k] == h[k]
    ensures extra == map[] ==> r == h
  {
    map k | k in extra.Keys + h.Keys && (k in extra || !Named(extra, k)) :: if k in extra then extra[k] else h[k]
  }

  /**
   * The headers the transport library starts a client with, before the
   * ones it is given: `Accept`, `Accept-Encoding`, `Connection` and
   * `User-Agent`. The encodings and the agent depend on the library's
   * version and the codecs installed, so they are parameters.
   */
  function LibraryHeaders(acceptEncoding: string, userAgent: string): map<string, string>
  {
    map["Accept" := "*/*", "Accept-Encoding" := acceptEncoding, "Connection" := "keep-alive", "User-Agent" := userAgent]
  }

  /**
   * The request as the transport library is given it for `req`: the
   * client's default headers updated with the per-call headers, so that a
   * per-call header replaces every default whose name matches it
   * regardless of case. Headers the library derives when it builds the
   * request (`Host`, `Content-Length`, `Content-Type`, `Cookie`) are not
   * part of it.
   */
  function Sent(req: HttpRequest, defaults: map<string, string>): (sent: HttpRequest)
    ensures sent.headers.Some?
    ensures req.headers.None? ==> sent.headers.value == defaults
    ensures req.headers.Some? ==> forall name :: name in sent.headers.value <==>
      name in req.headers.value || (name in defaults && !Named(req.headers.value, name))
    ensures req.headers.Some? ==> forall name :: name in req.headers.value ==>
      sent.headers.value[name] == req.headers.value[name]
    ensures req.headers.Some? ==> forall name :: name in sent.headers.value && name !in req.headers.value ==>
      sent.headers.value[name] == defaults[name]
    ensures sent.(headers := req.headers) == req
  {
    req.(headers := Some(Updated(defaults, if req.headers.Some? then req.headers.value else map[])))
  }

  /** A header added as a default is sent under that name with that value, and no other spelling of it is, unless the call names it itself. */
  lemma AddedHeaderSent(req: HttpRequest, h: map<string, string>, name: string, value: string)
    requires req.headers.None? || !Named(req.headers.value, name)
    ensures var sent := Sent(req, WithHeader(h, name, value)).headers.value;
      name in sent && sent[name] == value
      && forall k :: k in sent && Lower(k) == Lower(name) ==> k == name
  {
    var sent := Sent(req, WithHeader(h, name, value)).headers.value;
    if req.headers.Some? {
      assert name !in req.headers.value;
      forall k | k in sent && Lower(k) == Lower(name)
        ensures k == name
      {
        assert k !in req.headers.value;
      }
    }
  }

  /** A header removed from the defaults is sent in no spelling at all, unless the call names it itself. */
  lemma RemovedHeaderNotSent(req: HttpRequest, h: map<string, string>, name: string)
    requires req.headers.None? || !Named(req.headers.value, name)
    ensures !Named(Sent(req, WithoutHeader(h, name)).headers.value, name)
  {
    var sent := Sent(req, WithoutHeader(h, name)).headers.value;
    if req.headers.Some? {
      forall k | k in sent
        ensures Lower(k) != Lower(name)
      {
        if k !in req.headers.value {
          assert k in WithoutHeader(h, name);
        }
      }
    }
  }

  /** The result of a call, the sleeps between its attempts, and how many requests it made. */
  datatype Trace = Trace(result: CallResult, sleeps: seq<int>, attempts: nat)

  // ---------------------------------------------------------------------
  // Retry policy
  // ---------------------------------------------------------------------

  function Pow2(n: nat): (p: nat)
    ensures p >= 1
  {
    if n == 0 then 1 else 2 * Pow2(n - 1)
  }

  /** `0.1 * 2 ** attempt` seconds, in milliseconds. */
  function Backoff(attempt: nat): (ms: nat)
    ensures ms >= 100
  {
    100 * Pow2(attempt)
  }

  lemma BackoffDoubles(attempt: nat)
    ensures Backoff(attempt + 1) == 2 * Backoff(attempt)
  {
  }

  predicate RetryableStatus(status: int)
  {
    status >= 500 || status == 429
  }

  /**
   * Whether the loop goes on after attempt `attempt` yielded `o`: attempts
   * remain, and `o` is a transport error or a 5xx/429 response whose
   * Retry-After header (if any) parses.
   */
  predicate Continues(o: Outcome, attempt: nat, retries: int)
  {
    attempt < retries &&
    match o
    case TransportError(_) => true
    case Got(r) => RetryableStatus(r.status) && r.retryAfter != Some(Unparsable)
  }

  /** The sleep after an attempt that the loop retries: the Retry-After value when a response carries one, else the exponential backoff. */
  function SleepFor(o: Outcome, attempt: nat): int
  {
    if o.Got? && o.response.retryAfter.Some? && o.response.retryAfter.value.Delay?
    then o.response.retryAfter.value.ms
    else Backoff(attempt)
  }

  /** How the loop ends on an attempt it does not retry. */
  function Settle(o: Outcome, attempt: nat, retries: int): CallResult
  {
    match o
    case TransportError(e) => Threw(Transport(e))
    case Got(r) => if RetryableStatus(r.status) && attempt < retries then Threw(InvalidRetryAfter) else Returned(r)
  }

  /** The retry loop from attempt `attempt` on, for `retries + 1` attempts in all. */
  function Run(req: HttpRequest, net: Network, retries: int, attempt: nat): (t: Trace)
    ensures attempt <= retries ==> attempt < t.attempts <= retries + 1 && |t.sleeps| == t.attempts - attempt - 1
    decreases retries - attempt
  {
    if attempt > retries then Trace(Threw(NoAttempt), [], attempt)
    else
      var o := net(req, attempt);
      if Continues(o, attempt, retries) then
        var rest := Run(req, net, retries, attempt + 1);
        Trace(rest.result, [SleepFor(o, attempt)] + rest.sleeps, rest.attempts)
      else
        Trace(Settle(o, attempt, retries), [], attempt + 1)
  }

  /** One step of the loop: how `Run` from attempt `attempt` relates to `Run` from the next attempt. */
  lemma RunStep(req: HttpRequest, net: Network, retries: int, attempt: nat, done: seq<int>)
    requires attempt <= retries
    ensures var o := net(req, attempt);
      var t := Run(req, net, retries, attempt);
      var rest := Run(req, net, retries, attempt + 1);
      if Continues(o, attempt, retries) then
        Resumed(done, t) == Resumed(done + [SleepFor(o, attempt)], rest)
      else
        Resumed(done, t) == Trace(Settle(o, attempt, retries), done, attempt + 1)
  {
    var o := net(req, attempt);
    if Continues(o, attempt, retries) {
      var rest := Run(req, net, retries, attempt + 1);
      assert done + ([SleepFor(o, attempt)] + rest.sleeps) == (done + [SleepFor(o, attempt)]) + rest.sleeps;
    }
  }

  /** A run continued after the sleeps `done` already taken. */
  function Resumed(done: seq<int>, t: Trace): Trace
  {
    Trace(t.result, done + t.sleeps, t.attempts)
  }

  /**
   * Every attempt but the last was retried after the sleep its outcome
   * calls for; the last one was not retried and decides the result.
   */
  lemma {:induction false} RunCharacterised(req: HttpRequest, net: Network, retries: int, attempt: nat)
    requires attempt <= retries
    ensures var t := Run(req, net, retries, attempt);
      && (forall j :: attempt <= j < t.attempts - 1 ==>
            Continues(net(req, j), j, retries) && t.sleeps[j - attempt] == SleepFor(net(req, j), j))
      && !Continues(net(req, t.attempts - 1), t.attempts - 1, retries)
      && t.result == Settle(net(req, t.attempts - 1), t.attempts - 1, retries)
    decreases retries - attempt
  {
    var o := net(req, attempt);
    if Continues(o, attempt, retries) {
      RunCharacterised(req, net, retries, attempt + 1);
    }
  }

  /** The loop never falls through to its final RuntimeError unless it makes no attempt at all. */
  lemma NoAttemptIffNegativeRetries(req: HttpRequest, net: Network, retries: int)
    ensures Run(req, net, retries, 0).attempts == 0 <==> retries < 0
    ensures Run(req, net, retries, 0).result == Threw(NoAttempt) <==> retries < 0
  {
    if retries >= 0 {
      RunCharacterised(req, net, retries, 0);
    }
  }

  /** A response that is not 5xx or 429 is returned at once. */
  lemma NonRetryableReturnedAtOnce(req: HttpRequest, net: Network, retries: int)
    requires retries >= 0 && net(req, 0).Got? && !RetryableStatus(net(req, 0).response.status)
    ensures Run(req, net, retries, 0) == Trace(Returned(net(req, 0).response), [], 1)
  {
  }

  /** A 5xx or 429 response on the last attempt is returned, not raised. */
  lemma ServerErrorsExhausted(req: HttpRequest, net: Network, retries: int)
    requires retries >= 0
    requires forall k :: 0 <= k <= retries ==>
      net(req, k).Got? && RetryableStatus(net(req, k).response.status) && net(req, k).response.retryAfter == None
    ensures var t := Run(req, net, retries, 0);
      && t.attempts == retries + 1
      && t.result == Returned(net(req, retries).response)
      && (forall j :: 0 <= j < retries ==> t.sleeps[j] == Backoff(j))
  {
    var t := Run(req, net, retries, 0);
    RunCharacterised(req, net, retries, 0);
    forall j | 0 <= j < retries
      ensures t.sleeps[j] == Backoff(j)
    {
      assert t.sleeps[j - 0] == SleepFor(net(req, j), j);
    }
  }

  /** A transport error on every attempt is re-raised after the last one. */
  lemma TransportErrorsExhausted(req: HttpRequest, net: Network, retries: int)
    requires retries >= 0
    requires forall k :: 0 <= k <= retries ==> net(req, k).TransportError?
    ensures var t := Run(req, net, retries, 0);
      && t.attempts == retries + 1
      && t.result == Threw(Transport(net(req, retries).reason))
      && (forall j :: 0 <= j < retries ==> t.sleeps[j] == Backoff(j))
  {
    var t := Run(req, net, retries, 0);
    RunCharacterised(req, net, retries, 0);
    forall j | 0 <= j < retries
      ensures t.sleeps[j] == Backoff(j)
    {
      assert t.sleeps[j - 0] == SleepFor(net(req, j), j);
    }
  }

  /** A 5xx or 429 response carrying a Retry-After value is followed by a sleep of exactly that value. */
  lemma RetryAfterHonoured(req: HttpRequest, net: Network, retries: int, k: nat, ms: int)
    requires k < retries
    requires forall j :: 0 <= j < k ==> Continues(net(req, j), j, retries)
    requires net(req, k).Got? && RetryableStatus(net(req, k).response.status)
    requires net(req, k).response.retryAfter == Some(Delay(ms))
    ensures k < |Run(req, net, retries, 0).sleeps| && Run(req, net, retries, 0).sleeps[k] == ms
  {
    var t := Run(req, net, retries, 0);
    RunCharacterised(req, net, retries, 0);
    assert Continues(net(req, k), k, retries);
  }

  /** Three 503 responses with three retries allowed: four requests, three sleeps, and the final 503 comes back. */
  lemma ServiceUnavailableThreeRetries(req: HttpRequest, net: Network)
    requires forall k :: 0 <= k <= 3 ==> net(req, k) == Got(Response(503, None, ""))
    ensures Run(req, net, 3, 0) == Trace(Returned(Response(503, None, "")), [100, 200, 400], 4)
  {
    ServerErrorsExhausted(req, net, 3);
    var t := Run(req, net, 3, 0);
    assert t.sleeps[0] == Backoff(0) && t.sleeps[1] == Backoff(1) && t.sleeps[2] == Backoff(2);
  }

  // ---------------------------------------------------------------------
  // The client
  // ---------------------------------------------------------------------

  class HttpClient {
    const retries: int
    /** The client's own copy of its default headers (`self.headers`). */
    var headers: map<string, string>
    /** The default headers of the underlying transport client (`self.client.headers`). */
    var clientHeaders: map<string, string>

    /**
     * `HttpClient(retries=..., headers=...)`. The transport client starts
     * from the library's own headers, updated with the given ones.
     */
    constructor(retries: int, headers: Option<map<string, string>>, acceptEncoding: string, userAgent: string)
      ensures this.retries == retries
      ensures this.headers == (if headers.Some? then headers.value else map[])
      ensures clientHeaders == Updated(LibraryHeaders(acceptEncoding, userAgent), this.headers)
    {
      var given := if headers.Some? then headers.value else map[];
      this.retries := retries;
      this.headers := given;
      clientHeaders := Updated(LibraryHeaders(acceptEncoding, userAgent), given);
    }

    /** `add_header`: set in the client's own dictionary, and in the transport client's headers regardless of case. */
    method AddHeader(name: string, value: string)
      modifies this
      ensures headers == old(headers)[name := value]
      ensures clientHeaders == WithHeader(old(clientHeaders), name, value)
    {
      headers := headers[name := value];
      clientHeaders := WithHeader(clientHeaders, name, value);
    }

    /** `remove_header`: the exact name from the client's own dictionary, every spelling of it from the transport client's headers. */
    method RemoveHeader(name: string)
      modifies this
      ensures headers == old(headers) - {name}
      ensures clientHeaders == WithoutHeader(old(clientHeaders), name)
    {
      if name in headers {
        headers := headers - {name};
      }
      if Named(clientHeaders, name) {
        clientHeaders := WithoutHeader(clientHeaders, name);
      }
    }

    /**
     * `_request_with_retry`: sends `req`, with the transport client's
     * default headers merged in, until it succeeds, fails for good, or the
     * attempts run out.
     */
    method RequestWithRetry(req: HttpRequest, net: Network) returns (t: Trace)
      ensures t == Run(Sent(req, clientHeaders), net, retries, 0)
    {
      var sent := Sent(req, clientHeaders);
      var lastError: Option<string> := None;
      var sleeps: seq<int> := [];
      var attempt: nat := 0;
      while attempt <= retries
        invariant attempt == 0 || attempt <= retries
        invariant attempt == 0 ==> lastError == None && sleeps == []
        invariant Run(sent, net, retries, 0) == Resumed(sleeps, Run(sent, net, retries, attempt))
        decreases retries - attempt
      {
        var o := net(sent, attempt);
        RunStep(sent, net, retries, attempt, sleeps);
        if o.TransportError? {
          lastError := Some(o.reason);
          if attempt < retries {
            sleeps := sleeps + [Backoff(attempt)];
            attempt := attempt + 1;
            continue;
          }
          return Trace(Threw(Transport(o.reason)), sleeps, attempt + 1);
        }
        var response := o.response;
        if RetryableStatus(response.status) && attempt < retries {
          var pause: int;
          match response.retryAfter {
            case Some(Unparsable) =>
              return Trace(Threw(InvalidRetryAfter), sleeps, attempt + 1);
            case Some(Delay(ms)) =>
              pause := ms;
            case None =>
              pause := Backoff(attempt);
          }
          sleeps := sleeps + [pause];
          attempt := attempt + 1;
          continue;
        }
        return Trace(Returned(response), sleeps, attempt + 1);
      }
      if lastError.Some? {
        assert false;
      }
      t := Trace(Threw(NoAttempt), [], 0);
    }

    method Get(url: string, params: Option<map<string, string>>, headers: Option<map<string, string>>, net: Network)
      returns (t: Trace)
      ensures t == Run(Sent(HttpRequest("GET", url, params, headers, None, None), clientHeaders), net, retries, 0)
    {
      t := RequestWithRetry(HttpRequest("GET", url, params, headers, None, None), net);
    }

    method Post(url: string, data: Option<string>, json: Option<string>, headers: Option<map<string, string>>, net: Network)
      returns (t: Trace)
      ensures t == Run(Sent(HttpRequest("POST", url, None, headers, data, json), clientHeaders), net, retries, 0)
    {
      t := RequestWithRetry(HttpRequest("POST", url, None, headers, data, json), net);
    }

    method Put(url: string, data: Option<string>, json: Option<string>, headers: Option<map<string, string>>, net: Network)
      returns (t: Trace)
      ensures t == Run(Sent(HttpRequest("PUT", url, None, headers, data, json), clientHeaders), net, retries, 0)
    {
      t := RequestWithRetry(HttpRequest("PUT", url, None, headers, data, json), net);
    }

    method Patch(url: string, data: Option<string>, json: Option<string>, headers: Option<map<string, string>>, net: Network)
      returns (t: Trace)
      ensures t == Run(Sent(HttpRequest("PATCH", url, None, headers, data, json), clientHeaders), net, retries, 0)
    {
      t := RequestWithRetry(HttpRequest("PATCH", url, None, headers, data, json), net);
    }

    method Delete(url: string, headers: Option<map<string, string>>, net: Network)
      returns (t: Trace)
      ensures t == Run(Sent(HttpRequest("DELETE", url, None, headers, None, None), clientHeaders), net, retries, 0)
    {
      t := RequestWithRetry(HttpRequest("DELETE", url, None, headers, None, None), net);
    }
  }

  /** Removing a header that neither map knew before it was added restores both maps. */
  lemma RemoveUndoesAdd(m: map<string, string>, h: map<string, string>, name: string, value: string)
    requires name !in m && !Named(h, name)
    ensures m[name := value] - {name} == m
    ensures WithoutHeader(WithHeader(h, name, value), name) == h
  {
    assert (m[name := value] - {name}).Keys == m.Keys;
    var back := WithoutHeader(WithHeader(h, name, value), name);
    forall k | k in h
      ensures k in back
    {
      assert Lower(k) != Lower(name);
    }
  }

  // ---------------------------------------------------------------------
  // The service client
  // ---------------------------------------------------------------------

  /**
   * `urljoin(f"http://{address}:{port}", path)`; `None` when `urljoin`
   * raises `ValueError`.
   */
  function InstanceUrl(instance: Discovery.ServiceInstance, path: string): (url: Option<string>)
    ensures path == [] ==> url == Some(Discovery.BaseUrl(instance.address, instance.port))
  {
    Join(Discovery.BaseUrl(instance.address, instance.port), path)
  }

  /** `{address}:{port}`, the network location of an instance's base URL. */
  function Authority(instance: Discovery.ServiceInstance): (netloc: string)
    ensures Discovery.BaseUrl(instance.address, instance.port) == "http://" + netloc
  {
    instance.address + ":" + IntToString(instance.port)
  }

  /** An address without URL delimiters gives a plain, non-empty network location. */
  lemma AuthorityPlain(instance: Discovery.ServiceInstance)
    requires PlainHost(instance.address)
    ensures PlainHost(Authority(instance)) && Authority(instance) != []
  {
    var port := IntToString(instance.port);
    var netloc := instance.address + ":" + port;
    forall i | 0 <= i < |netloc|
      ensures netloc[i] !in {'/', '?', '#', '[', ']', '\t', '\r', '\n'}
    {
      if i < |instance.address| {
        assert netloc[i] == instance.address[i];
      } else if i > |instance.address| {
        assert netloc[i] == port[i - |instance.address| - 1];
      }
    }
  }

  /** An absolute path replaces the (empty) path of the base URL. */
  lemma InstanceUrlAbsolutePath(instance: Discovery.ServiceInstance, path: string)
    requires PlainHost(instance.address) && PlainPath(path)
    ensures InstanceUrl(instance, path) == Some(Discovery.BaseUrl(instance.address, instance.port) + path)
  {
    AuthorityPlain(instance);
    JoinAbsolutePath(Authority(instance), path);
  }

  /** A relative path is resolved against the root of the base URL. */
  lemma InstanceUrlRelativePath(instance: Discovery.ServiceInstance, path: string)
    requires PlainHost(instance.address) && PlainRelativePath(path)
    ensures InstanceUrl(instance, path) == Some(Discovery.BaseUrl(instance.address, instance.port) + "/" + path)
  {
    AuthorityPlain(instance);
    JoinRelativePath(Authority(instance), path);
  }

  /** A path starting with `//` names another host, which replaces the instance's. */
  lemma InstanceUrlNetworkPath(instance: Discovery.ServiceInstance, other: string, path: string)
    requires PlainHost(instance.address)
    requires PlainHost(other) && other != [] && (path == [] || PlainPath(path))
    ensures InstanceUrl(instance, "//" + other + path) == Some("http://" + other + path)
  {
    AuthorityPlain(instance);
    JoinNetworkPath(Authority(instance), other, path);
  }

  /** A path `urlparse` rejects makes the join raise. */
  lemma InstanceUrlRejects(instance: Discovery.ServiceInstance, path: string)
    requires PlainHost(instance.address)
    requires path != [] && Parse(path, "http").None?
    ensures InstanceUrl(instance, path).None?
  {
    AuthorityPlain(instance);
    JoinRejects(Authority(instance), path);
  }

  class ServiceClient {
    const serviceName: string
    const http: HttpClient
    const discovery: Discovery.ServiceDiscoveryClient
    var serviceInstances: seq<Discovery.ServiceInstance>

    constructor(serviceName: string, http: HttpClient, discovery: Discovery.ServiceDiscoveryClient)
      ensures this.serviceName == serviceName && this.http == http && this.discovery == discovery
      ensures serviceInstances == []
    {
      this.serviceName := serviceName;
      this.http := http;
      this.discovery := discovery;
      serviceInstances := [];
    }

    /** `_discover_service`: replaces the instance list with what discovery returns; an empty list is an error. */
    method DiscoverInstances(now: int, reply: Discovery.Reply<seq<Discovery.ServiceInfo>>) returns (failure: Option<Error>)
      requires discovery.Valid()
      modifies this`serviceInstances, discovery
      ensures discovery.Valid()
      ensures (serviceInstances, discovery.Snapshot())
        == Discovery.Discover(old(discovery.Snapshot()), discovery.cacheTtl, serviceName, now, reply)
      ensures discovery.sent == old(discovery.sent)
        + (if Discovery.Queries(old(discovery.Snapshot()), discovery.cacheTtl, serviceName, now) == 0 then []
           else [Discovery.HealthServiceQuery(serviceName)])
      ensures failure == if serviceInstances == [] then Some(NoInstances(serviceName)) else None
    {
      serviceInstances := discovery.DiscoverService(serviceName, now, reply);
      if serviceInstances == [] {
        return Some(NoInstances(serviceName));
      }
      return None;
    }

    /**
     * `_get_service_url`: discovers only while the list is empty, then
     * picks any instance and joins its base URL with the path.
     */
    method GetServiceUrl(path: string, now: int, reply: Discovery.Reply<seq<Discovery.ServiceInfo>>)
      returns (url: Result<string, Error>)
      requires discovery.Valid()
      modifies this`serviceInstances, discovery
      ensures discovery.Valid()
      ensures old(serviceInstances) != [] ==> serviceInstances == old(serviceInstances) && unchanged(discovery)
      ensures old(serviceInstances) == [] ==>
        (serviceInstances, discovery.Snapshot())
        == Discovery.Discover(old(discovery.Snapshot()), discovery.cacheTtl, serviceName, now, reply)
      ensures old(serviceInstances) == [] ==>
        discovery.sent == old(discovery.sent)
          + (if Discovery.Queries(old(discovery.Snapshot()), discovery.cacheTtl, serviceName, now) == 0 then []
             else [Discovery.HealthServiceQuery(serviceName)])
      ensures serviceInstances == [] <==> url == Failure(NoInstances(serviceName))
      ensures url.Success? ==> exists instance :: instance in serviceInstances && InstanceUrl(instance, path) == Some(url.value)
      ensures url.Failure? && serviceInstances != [] ==>
        url.error == InvalidUrl && exists instance :: instance in serviceInstances && InstanceUrl(instance, path).None?
    {
      if serviceInstances == [] {
        var failure := DiscoverInstances(now, reply);
        if failure.Some? {
          return Failure(failure.value);
        }
      }
      var i :| 0 <= i < |serviceInstances|;
      var instance := serviceInstances[i];
      var joined := InstanceUrl(instance, path);
      if joined.None? {
        return Failure(InvalidUrl);
      }
      return Success(joined.value);
    }

    /** `request`: resolves a URL for the path and sends the request through the retry loop. */
    method Request(
      verb: string, path: string,
      params: Option<map<string, string>>, headers: Option<map<string, string>>,
      content: Option<string>, json: Option<string>,
      now: int, reply: Discovery.Reply<seq<Discovery.ServiceInfo>>, net: Network)
      returns (t: Trace)
      requires discovery.Valid()
      modifies this`serviceInstances, discovery
      ensures discovery.Valid()
      ensures old(serviceInstances) != [] ==> serviceInstances == old(serviceInstances) && unchanged(discovery)
      ensures old(serviceInstances) == [] ==>
        (serviceInstances, discovery.Snapshot())
        == Discovery.Discover(old(discovery.Snapshot()), discovery.cacheTtl, serviceName, now, reply)
      ensures old(serviceInstances) == [] ==>
        discovery.sent == old(discovery.sent)
          + (if Discovery.Queries(old(discovery.Snapshot()), discovery.cacheTtl, serviceName, now) == 0 then []
             else [Discovery.HealthServiceQuery(serviceName)])
      ensures serviceInstances == [] ==> t == Trace(Threw(NoInstances(serviceName)), [], 0)
      ensures serviceInstances != [] ==>
        exists instance :: (instance in serviceInstances &&
          if InstanceUrl(instance, path).None? then t == Trace(Threw(InvalidUrl), [], 0)
          else t == Run(Sent(HttpRequest(verb, InstanceUrl(instance, path).value, params, headers, content, json),
                             http.clientHeaders), net, http.retries, 0))
    {
      var url := GetServiceUrl(path, now, reply);
      if url.Failure? {
        return Trace(Threw(url.error), [], 0);
      }
      t := http.RequestWithRetry(HttpRequest(verb, url.value, params, headers, content, json), net);
    }
  }
}

=== FILE: text.dfy ===
/** The few string operations of the Python standard library that the core relies on. */
module Text {

  /** `s.endswith(suffix)` */
  predicate EndsWith(s: string, suffix: string)
  {
    |suffix| <= |s| && s[|s| - |suffix|..] == suffix
  }

  /** `s.startswith(prefix)` */
  predicate StartsWith(s: string, prefix: string)
  {
    |prefix| <= |s| && s[..|prefix|] == prefix
  }

  lemma EndsWithAppended(s: string, suffix: string)
    ensures EndsWith(s + suffix, suffix)
  {
    assert (s + suffix)[|s|..] == suffix;
  }

  /** `s.rstrip("/")`: drops every trailing slash and nothing else. */
  function TrimTrailingSlashes(s: string): (r: string)
    ensures r <= s
    ensures r == [] || r[|r| - 1] != '/'
    ensures forall i :: |r| <= i < |s| ==> s[i] == '/'
  {
    if s == [] || s[|s| - 1] != '/' then s else TrimTrailingSlashes(s[..|s| - 1])
  }

  function DigitChar(d: nat): (c: char)
    requires d < 10
    ensures '0' <= c <= '9'
  {
    "0123456789"[d]
  }

  /** Decimal text of a natural number, as Python's `str` writes it. */
  function NatToString(n: nat): (r: string)
    ensures |r| > 0
    ensures forall i :: 0 <= i < |r| ==> '0' <= r[i] <= '9'
  {
    if n < 10 then [DigitChar(n)] else NatToString(n / 10) + [DigitChar(n % 10)]
  }

  /** Decimal text of an integer, as an f-string formats a Python `int`. */
  function IntToString(n: int): (r: string)
    ensures |r| > 0
    ensures forall i :: 0 <= i < |r| ==> ('0' <= r[i] <= '9') || (i == 0 && n < 0 && r[i] == '-')
  {
    if n < 0 then "-" + NatToString(-n) else NatToString(n)
  }

  /** ASCII lower-casing: `str.lower` on a URL scheme, and the folding the transport library applies to header names. */
  function Lower(s: string): (r: string)
    ensures |r| == |s|
    ensures forall i :: 0 <= i < |s| ==> ('A' <= s[i] <= 'Z' ==> r[i] == s[i] - 'A' + 'a') && (!('A' <= s[i] <= 'Z') ==> r[i] == s[i])
  {
    if s == [] then []
    else [if 'A' <= s[0] <= 'Z' then s[0] - 'A' + 'a' else s[0]] + Lower(s[1..])
  }
}

=== FILE: urls.dfy ===
/**
 * The part of Python's `urllib.parse` that the core uses: `urlparse`, which
 * the health checker calls on an endpoint, and `urljoin`, which the service
 * client calls on an instance's base URL and a request path.
 *
 * A call that raises `ValueError` gives `None`.
 */
module Urls {
  import opened Wrappers
  import opened Text

  /** The six components of `urlparse`'s result. */
  datatype Parts = Parts(
    scheme: string, netloc: string, path: string, params: string, query: string, fragment: string)

  /** `uses_relative`: schemes whose URLs `urljoin` resolves against a base. */
  predicate UsesRelative(scheme: string)
  {
    scheme in {
      "", "ftp", "http", "gopher", "nntp", "imap", "wais", "file", "https", "shttp", "mms",
      "prospero", "rtsp", "rtsps", "rtspu", "sftp", "svn", "svn+ssh", "ws", "wss"}
  }

  /** `uses_netloc`: schemes whose URLs carry a network location. */
  predicate UsesNetloc(scheme: string)
  {
    scheme in {
      "", "ftp", "http", "gopher", "nntp", "telnet", "imap", "wais", "file", "mms", "https",
      "shttp", "snews", "prospero", "rtsp", "rtsps", "rtspu", "rsync", "svn", "svn+ssh", "sftp",
      "nfs", "git", "git+ssh", "ws", "wss", "itms-services"}
  }

  /** `uses_params`: schemes whose last path segment may carry `;parameters`. */
  predicate UsesParams(scheme: string)
  {
    scheme in {
      "", "ftp", "hdl", "prospero", "http", "imap", "https", "shttp", "rtsp", "rtsps", "rtspu",
      "sip", "sips", "mms", "sftp", "tel"}
  }

  // ---------------------------------------------------------------------
  // Scanning
  // ---------------------------------------------------------------------

  /** The longest prefix of `s` that holds none of `stops`. */
  function UpTo(s: string, stops: set<char>): (r: string)
    ensures r <= s
    ensures forall i :: 0 <= i < |r| ==> r[i] !in stops
    ensures |r| < |s| ==> s[|r|] in stops
    ensures (forall i :: 0 <= i < |s| ==> s[i] !in stops) ==> r == s
  {
    if s == [] || s[0] in stops then [] else [s[0]] + UpTo(s[1..], stops)
  }

  /** The index of the last `c` in `s`, or 0 when there is none. */
  function LastIndex(s: string, c: char): (i: nat)
    ensures c in s ==> i < |s| && s[i] == c && forall k :: i < k < |s| ==> s[k] != c
    ensures c !in s ==> i == 0
  {
    if s == [] then 0
    else if s[|s| - 1] == c then |s| - 1
    else LastIndex(s[..|s| - 1], c)
  }

  /** `s.split(sep)`: the pieces between the separators, at least one. */
  function Split(s: string, sep: char): (parts: seq<string>)
    ensures |parts| >= 1
    ensures forall i :: 0 <= i < |parts| ==> sep !in parts[i]
    ensures JoinWith(parts, sep) == s
    decreases |s|
  {
    var head := UpTo(s, {sep});
    if |head| == |s| then [s]
    else
      var rest := Split(s[|head| + 1..], sep);
      assert s == head + [sep] + s[|head| + 1..];
      [head] + rest
  }

  /** `sep.join(parts)` */
  function JoinWith(parts: seq<string>, sep: char): (s: string)
  {
    if parts == [] then ""
    else if |parts| == 1 then parts[0]
    else parts[0] + [sep] + JoinWith(parts[1..], sep)
  }

  // ---------------------------------------------------------------------
  // urlparse
  // ---------------------------------------------------------------------

  /** The characters `urlsplit` strips from the head of a URL: the C0 controls and the space. */
  predicate IsControlOrSpace(c: char)
  {
    c <= ' '
  }

  /** The characters `urlsplit` deletes wherever they occur: tab, carriage return and line feed. */
  predicate IsUnsafe(c: char)
  {
    c == '\t' || c == '\r' || c == '\n'
  }

  /** `url.lstrip(...)` of the C0 controls and the space. */
  function LStripControls(url: string): (r: string)
    ensures |r| <= |url| && r == url[|url| - |r|..]
    ensures r == [] || !IsControlOrSpace(r[0])
    ensures url != [] && !IsControlOrSpace(url[0]) ==> r == url
  {
    if url == [] || !IsControlOrSpace(url[0]) then url else LStripControls(url[1..])
  }

  /** `url` with every tab, carriage return and line feed deleted. */
  function RemoveUnsafe(url: string): (r: string)
    ensures forall i :: 0 <= i < |r| ==> !IsUnsafe(r[i])
    ensures (forall i :: 0 <= i < |url| ==> !IsUnsafe(url[i])) ==> r == url
  {
    if url == [] then []
    else if IsUnsafe(url[0]) then RemoveUnsafe(url[1..])
    else [url[0]] + RemoveUnsafe(url[1..])
  }

  /** What `urlsplit` works on: the URL stripped at its head, then without tabs and line breaks. */
  function Sanitize(url: string): (r: string)
    ensures forall i :: 0 <= i < |r| ==> !IsUnsafe(r[i])
  {
    RemoveUnsafe(LStripControls(url))
  }

  predicate IsAsciiLetter(c: char)
  {
    ('a' <= c <= 'z') || ('A' <= c <= 'Z')
  }

  /** Characters `urlsplit` accepts in a scheme. */
  predicate IsSchemeChar(c: char)
  {
    IsAsciiLetter(c) || ('0' <= c <= '9') || c == '+' || c == '-' || c == '.'
  }

  /**
   * The scheme `urlsplit` finds at the head of `url`, lower-cased, and what
   * follows its colon: `url[:i]` where `i` is the first colon, when `i > 0`,
   * the first character is an ASCII letter and every character before the
   * colon is a scheme character. `None` when there is no scheme.
   */
  function SplitScheme(url: string): (r: Option<(string, string)>)
    ensures r.Some? ==> 0 < |r.value.0| < |url| && r.value.1 == url[|r.value.0| + 1..] && url[|r.value.0|] == ':'
    ensures ':' !in url ==> r.None?
    ensures url != [] && !IsAsciiLetter(url[0]) ==> r.None?
  {
    var i := |UpTo(url, {':'})|;
    if 0 < i < |url| && IsAsciiLetter(url[0]) && forall k :: 0 <= k < i ==> IsSchemeChar(url[k])
    then Some((Lower(url[..i]), url[i + 1..]))
    else None
  }

  /**
   * `_splitparams`: the parameters start at the first `;` from the last `/`
   * on, or anywhere when there is no `/`; without such a `;` there are none.
   */
  function SplitParams(path: string): (r: (string, string))
    requires ';' in path
    ensures (r.0 == path && r.1 == "") || r.0 + [';'] + r.1 == path
    ensures '/' !in r.1
  {
    var start := LastIndex(path, '/');
    var k := |UpTo(path[start..], {';'})|;
    if start + k == |path| then (path, "")
    else
      assert path == path[..start + k] + [';'] + path[start + k + 1..];
      assert forall i :: start + k < i < |path| ==> path[i] != '/';
      (path[..start + k], path[start + k + 1..])
  }

  /** The scheme of a sanitized URL and what follows it; `default` when the URL has none. */
  function SchemeOf(clean: string, default: string): (r: (string, string))
  {
    if SplitScheme(clean).Some? then SplitScheme(clean).value else (default, clean)
  }

  /** `_splitnetloc(rest, 2)` when `rest` starts with `//`: the network location, up to the first `/`, `?` or `#`, and what follows it. */
  function SplitNetloc(rest: string): (r: (string, string))
    ensures forall i :: 0 <= i < |r.0| ==> r.0[i] !in {'/', '?', '#'}
    ensures r.0 != "" ==> r.1 == [] || r.1[0] in {'/', '?', '#'}
    ensures !(|rest| >= 2 && rest[..2] == "//") ==> r == ("", rest)
  {
    if |rest| >= 2 && rest[..2] == "//" then
      var netloc := UpTo(rest[2..], {'/', '?', '#'});
      (netloc, rest[2 + |netloc|..])
    else ("", rest)
  }

  /** What follows the network location, cut at the first `#` (the fragment) and then at the first `?` (the query): the path, the query and the fragment. */
  function SplitTail(tail: string): (r: (string, string, string))
    ensures (forall i :: 0 <= i < |tail| ==> tail[i] !in {'?', '#'}) ==> r == (tail, "", "")
  {
    var beforeFragment := UpTo(tail, {'#'});
    var fragment := if |beforeFragment| < |tail| then tail[|beforeFragment| + 1..] else "";
    var path := UpTo(beforeFragment, {'?'});
    var query := if |path| < |beforeFragment| then beforeFragment[|path| + 1..] else "";
    (path, query, fragment)
  }

  /** The path and the parameters `urlparse` makes of a path: parameters only for a scheme in `uses_params`. */
  function ParamsOf(scheme: string, path: string): (r: (string, string))
    ensures ';' !in path ==> r == (path, "")
  {
    if UsesParams(scheme) && ';' in path then SplitParams(path) else (path, "")
  }

  /**
   * `urlparse(url, scheme)`, with `default` standing for the `scheme`
   * argument. After the scheme, a network location introduced by `//` runs
   * to the first `/`, `?` or `#`; holding only one of `[` and `]`, it makes
   * the call raise `ValueError` (`None` here). The fragment follows the first
   * `#`, the query the first `?` before it, and for a scheme in `uses_params`
   * the parameters are split off the path.
   */
  function Parse(url: string, default: string): (r: Option<Parts>)
    ensures r.Some? ==> forall i :: 0 <= i < |r.value.netloc| ==> r.value.netloc[i] !in {'/', '?', '#'}
    ensures r.Some? ==> ('[' in r.value.netloc <==> ']' in r.value.netloc)
  {
    var schemeAndRest := SchemeOf(Sanitize(url), default);
    var netlocAndTail := SplitNetloc(schemeAndRest.1);
    var netloc := netlocAndTail.0;
    if ('[' in netloc) != (']' in netloc) then None
    else
      var tail := SplitTail(netlocAndTail.1);
      var pathAndParams := ParamsOf(schemeAndRest.0, tail.0);
      Some(Parts(schemeAndRest.0, netloc, pathAndParams.0, pathAndParams.1, tail.1, tail.2))
  }

  /** `urlparse(url).path`; `None` when `urlparse` raises. */
  function PathOf(url: string): Option<string>
  {
    if Parse(url, "").Some? then Some(Parse(url, "").value.path) else None
  }

  /**
   * `urlunparse`, in the form `urlunsplit` long had: `//` and the network
   * location are written when there is one, or when the scheme uses one and
   * the path does not itself start with `//`.
   */
  function Unparse(p: Parts): (url: string)
  {
    var path := if p.params != "" then p.path + ";" + p.params else p.path;
    var withNetloc :=
      if p.netloc != "" || (p.scheme != "" && UsesNetloc(p.scheme) && !(|path| >= 2 && path[..2] == "//")) then
        "//" + p.netloc + (if path != "" && path[0] != '/' then "/" + path else path)
      else path;
    var withScheme := if p.scheme != "" then p.scheme + ":" + withNetloc else withNetloc;
    var withQuery := if p.query != "" then withScheme + "?" + p.query else withScheme;
    if p.fragment != "" then withQuery + "#" + p.fragment else withQuery
  }

  // ---------------------------------------------------------------------
  // urljoin
  // ---------------------------------------------------------------------

  /** `segment == "."` */
  predicate IsCurrent(segment: string)
  {
    |segment| == 1 && segment[0] == '.'
  }

  /** `segment == ".."` */
  predicate IsParent(segment: string)
  {
    |segment| == 2 && segment[0] == '.' && segment[1] == '.'
  }

  /** No segment is `.` or `..`. */
  predicate NoDotSegments(segments: seq<string>)
  {
    forall i :: 0 <= i < |segments| ==> !IsCurrent(segments[i]) && !IsParent(segments[i])
  }

  /** No segment but the first and the last is empty. */
  predicate NoEmptyInner(segments: seq<string>)
  {
    forall i :: 0 < i < |segments| - 1 ==> segments[i] != ""
  }

  /** The segments but the first and the last, with the empty ones dropped. */
  function FilterMiddle(segments: seq<string>): (r: seq<string>)
    ensures |segments| >= 1 ==> |r| >= 1
    ensures NoEmptyInner(segments) ==> r == segments
  {
    if |segments| <= 2 then segments
    else [segments[0]] + NonEmpty(segments[1..|segments| - 1]) + [segments[|segments| - 1]]
  }

  /** `filter(None, segments)` */
  function NonEmpty(segments: seq<string>): (r: seq<string>)
    ensures forall i :: 0 <= i < |r| ==> r[i] != ""
    ensures (forall i :: 0 <= i < |segments| ==> segments[i] != "") ==> r == segments
  {
    if segments == [] then []
    else if segments[0] == "" then NonEmpty(segments[1..])
    else [segments[0]] + NonEmpty(segments[1..])
  }

  /**
   * The dot-segment loop of `urljoin`: after the segments `kept` so far, a
   * `..` drops the last kept segment (if any), a `.` is skipped, and any
   * other segment is kept.
   */
  function Resolve(kept: seq<string>, segments: seq<string>): (r: seq<string>)
    ensures NoDotSegments(segments) ==> r == kept + segments
    decreases |segments|
  {
    if segments == [] then kept
    else if IsParent(segments[0]) then Resolve(if kept == [] then [] else kept[..|kept| - 1], segments[1..])
    else if IsCurrent(segments[0]) then Resolve(kept, segments[1..])
    else
      assert kept + segments == (kept + [segments[0]]) + segments[1..];
      Resolve(kept + [segments[0]], segments[1..])
  }

  /**
   * The segments `urljoin` resolves: those of an absolute reference path,
   * or else the base's directory followed by those of the reference path,
   * inner empty segments dropped.
   */
  function Segments(basePath: string, path: string): (segments: seq<string>)
    ensures |segments| >= 1
  {
    var baseParts := Split(basePath, '/');
    var baseDirs := if baseParts[|baseParts| - 1] != "" then baseParts[..|baseParts| - 1] else baseParts;
    if path != "" && path[0] == '/' then Split(path, '/') else FilterMiddle(baseDirs + Split(path, '/'))
  }

  /**
   * The path `urljoin` builds from its segments: dot segments resolved, a
   * trailing `/` kept after a final `.` or `..`, and `/` for nothing.
   */
  function Rejoin(segments: seq<string>): (path: string)
    requires |segments| >= 1
    ensures path != ""
  {
    var resolved := Resolve([], segments);
    var last := segments[|segments| - 1];
    var joined := JoinWith(if IsCurrent(last) || IsParent(last) then resolved + [""] else resolved, '/');
    if joined == "" then "/" else joined
  }

  /** The path `urljoin` builds from the base path and a non-empty reference path. */
  function MergePaths(basePath: string, path: string): (merged: string)
    ensures merged != ""
  {
    Rejoin(Segments(basePath, path))
  }

  /**
   * The part of `urljoin` after both URLs are parsed: `b` from the base and
   * `u` from the reference `url`, whose scheme defaults to the base's.
   */
  function JoinParts(b: Parts, u: Parts, url: string): (joined: string)
  {
    if u.scheme != b.scheme || !UsesRelative(u.scheme) then url
    else if UsesNetloc(u.scheme) && u.netloc != "" then Unparse(u)
    else
      var netloc := if UsesNetloc(u.scheme) then b.netloc else u.netloc;
      if u.path == "" && u.params == "" then
        Unparse(Parts(u.scheme, netloc, b.path, b.params, if u.query == "" then b.query else u.query, u.fragment))
      else
        Unparse(Parts(u.scheme, netloc, MergePaths(b.path, u.path), u.params, u.query, u.fragment))
  }

  /**
   * `urljoin(base, url)`. An empty side gives the other; a reference with a
   * scheme of its own (other than the base's, or one that is not relative)
   * is returned as it is; a reference with a network location replaces the
   * base's; otherwise the paths are merged. `None` when either `urlparse`
   * call raises.
   */
  function Join(base: string, url: string): (r: Option<string>)
    ensures base == [] ==> r == Some(url)
    ensures base != [] && url == [] ==> r == Some(base)
    ensures base != [] && url != [] ==>
      (r.None? <==> Parse(base, "").None? || Parse(url, Parse(base, "").value.scheme).None?)
  {
    if base == "" then Some(url)
    else if url == "" then Some(base)
    else if Parse(base, "").None? then None
    else
      var b := Parse(base, "").value;
      if Parse(url, b.scheme).None? then None
      else Some(JoinParts(b, Parse(url, b.scheme).value, url))
  }

  // ---------------------------------------------------------------------
  // What urlparse and urljoin do on the URLs the core builds
  // ---------------------------------------------------------------------

  /** A network location written as it is: no delimiter, bracket, tab or line break. */
  predicate PlainHost(h: string)
  {
    forall i :: 0 <= i < |h| ==> h[i] !in {'/', '?', '#', '[', ']', '\t', '\r', '\n'}
  }

  /** An absolute path with no query, fragment, parameters, tab or line break, not starting with `//`, and free of `.` and `..` segments. */
  predicate PlainPath(path: string)
  {
    && path != [] && path[0] == '/' && !(|path| >= 2 && path[1] == '/')
    && (forall i :: 0 <= i < |path| ==> path[i] !in {'?', '#', ';', '\t', '\r', '\n'})
    && NoDotSegments(Split(path, '/'))
  }

  /**
   * A relative path with no scheme, query, fragment, parameters, tab or line
   * break, free of `.` and `..` segments, and whose segments but the last
   * are non-empty.
   */
  predicate PlainRelativePath(path: string)
  {
    && path != [] && !IsControlOrSpace(path[0]) && path[0] != '/'
    && (forall i :: 0 <= i < |path| ==> path[i] !in {':', '?', '#', ';', '\t', '\r', '\n'})
    && NoDotSegments(Split(path, '/'))
    && NoEmptyInner(Split(path, '/') + [""])
  }

  lemma {:induction false} UpToStops(s: string, t: string, stops: set<char>)
    requires forall i :: 0 <= i < |s| ==> s[i] !in stops
    requires t != [] && t[0] in stops
    ensures UpTo(s + t, stops) == s
    decreases |s|
  {
    if s != [] {
      assert (s + t)[1..] == s[1..] + t;
      UpToStops(s[1..], t, stops);
    }
  }

  lemma Associative(a: string, b: string, c: string)
    ensures a + (b + c) == a + b + c
  {
  }

  /** No tab, carriage return or line feed. */
  predicate Safe(s: string)
  {
    forall i :: 0 <= i < |s| ==> !IsUnsafe(s[i])
  }

  lemma SafeConcat(a: string, b: string)
    requires Safe(a) && Safe(b)
    ensures Safe(a + b)
  {
    forall i | 0 <= i < |a + b|
      ensures !IsUnsafe((a + b)[i])
    {
      if i >= |a| {
        assert (a + b)[i] == b[i - |a|];
      }
    }
  }

  lemma SanitizeKeeps(url: string)
    requires url != [] && !IsControlOrSpace(url[0]) && Safe(url)
    ensures Sanitize(url) == url
  {
  }

  /** `urlparse` stage by stage: the scheme, the network location, then the path, query, fragment and parameters. */
  lemma ParseFrom(url: string, default: string, scheme: string, rest: string, netloc: string, tail: string)
    requires SchemeOf(Sanitize(url), default) == (scheme, rest)
    requires SplitNetloc(rest) == (netloc, tail)
    requires ('[' in netloc) == (']' in netloc)
    ensures var t := SplitTail(tail);
      Parse(url, default) == Some(Parts(scheme, netloc, ParamsOf(scheme, t.0).0, ParamsOf(scheme, t.0).1, t.1, t.2))
  {
  }

  /** `urljoin` of two non-empty URLs that both parse. */
  lemma JoinFrom(base: string, url: string, b: Parts, u: Parts)
    requires base != [] && url != []
    requires Parse(base, "") == Some(b) && Parse(url, b.scheme) == Some(u)
    ensures Join(base, url) == Some(JoinParts(b, u, url))
  {
  }

  /** `urlparse` raises when the network location holds only one of `[` and `]`. */
  lemma ParseRejects(url: string, default: string, scheme: string, rest: string, netloc: string, tail: string)
    requires SchemeOf(Sanitize(url), default) == (scheme, rest)
    requires SplitNetloc(rest) == (netloc, tail)
    requires ('[' in netloc) != (']' in netloc)
    ensures Parse(url, default) == None
  {
  }

  /** The scheme of `http:...` is `http`. */
  lemma SchemeOfHttp(rest: string, default: string)
    ensures SchemeOf("http:" + rest, default) == ("http", rest)
  {
    var url := "http:" + rest;
    assert url == "http" + (":" + rest);
    UpToStops("http", ":" + rest, {':'});
    assert url[..4] == "http";
    assert Lower("http") == "http";
  }

  /** The network location of `//` + a host without delimiters + a path. */
  lemma SplitNetlocPlain(h: string, path: string)
    requires forall i :: 0 <= i < |h| ==> h[i] !in {'/', '?', '#'}
    requires path == [] || path[0] == '/'
    ensures SplitNetloc("//" + h + path) == (h, path)
  {
    var rest := "//" + h + path;
    assert rest[..2] == "//";
    assert rest[2..] == h + path;
    if path == [] {
      assert h + path == h;
      assert UpTo(h, {'/', '?', '#'}) == h;
    } else {
      UpToStops(h, path, {'/', '?', '#'});
    }
    assert rest[2 + |h|..] == path;
  }

  /** `urlparse` of `http://` + a plain network location + a path without query, fragment or line breaks. */
  lemma ParseHttpUrl(h: string, path: string)
    requires PlainHost(h)
    requires path == [] || path[0] == '/'
    requires forall i :: 0 <= i < |path| ==> path[i] !in {'?', '#', '\t', '\r', '\n'}
    ensures Parse("http://" + h + path, "") == Some(Parts("http", h, ParamsOf("http", path).0, ParamsOf("http", path).1, "", ""))
  {
    HttpSchemeRest(h, path);
    SplitNetlocPlain(h, path);
    assert '[' !in h && ']' !in h;
    ParseFrom("http://" + h + path, "", "http", "//" + h + path, h, path);
    assert SplitTail(path) == (path, "", "");
  }

  /** The scheme of `http://` + a plain network location + a path, and what follows its colon. */
  lemma HttpSchemeRest(h: string, path: string)
    requires PlainHost(h)
    requires forall i :: 0 <= i < |path| ==> !IsUnsafe(path[i])
    ensures SchemeOf(Sanitize("http://" + h + path), "") == ("http", "//" + h + path)
  {
    var url := "http://" + h + path;
    SafeConcat("http://", h);
    SafeConcat("http://" + h, path);
    SanitizeKeeps(url);
    assert url == "http:" + ("//" + h + path);
    SchemeOfHttp("//" + h + path, "");
  }

  /** `urlparse` of a network-path reference `//host/path`, with the scheme defaulting to `http`. */
  lemma ParseNetworkPath(other: string, path: string)
    requires PlainHost(other)
    requires path == [] || PlainPath(path)
    ensures Parse("//" + other + path, "http") == Some(Parts("http", other, path, "", "", ""))
  {
    var url := "//" + other + path;
    SafeConcat("//", other);
    SafeConcat("//" + other, path);
    SanitizeKeeps(url);
    assert SplitScheme(url).None?;
    SplitNetlocPlain(other, path);
    ParseFrom(url, "http", "http", url, other, path);
    assert SplitTail(path) == (path, "", "");
  }

  /** `urlparse` of a path-only reference that cannot start a scheme or a network location, with the scheme defaulting to `http`. */
  lemma ParsePathOnly(path: string)
    requires path != [] && !IsControlOrSpace(path[0]) && !IsAsciiLetter(path[0]) && !(|path| >= 2 && path[..2] == "//")
    requires forall i :: 0 <= i < |path| ==> path[i] !in {'?', '#', ';', '\t', '\r', '\n'}
    ensures Parse(path, "http") == Some(Parts("http", "", path, "", "", ""))
  {
    SanitizeKeeps(path);
    assert SplitScheme(path).None?;
    assert SplitNetloc(path) == ("", path);
    ParseFrom(path, "http", "http", path, "", path);
    assert SplitTail(path) == (path, "", "");
  }

  /** `_splitparams` on `/;params` cuts at the `;` after the root. */
  lemma SplitParamsAtRoot(params: string)
    requires '/' !in params
    ensures ';' in "/;" + params && SplitParams("/;" + params) == ("/", params)
  {
    var path := "/;" + params;
    assert path[1] == ';';
    assert forall k :: 0 < k < |path| ==> path[k] != '/' by {
      forall k | 0 < k < |path|
        ensures path[k] != '/'
      {
        if k > 1 {
          assert path[k] == params[k - 2];
        }
      }
    }
    assert path[0] == '/';
    assert LastIndex(path, '/') == 0;
    assert path[0..] == path;
    assert UpTo(path[1..], {';'}) == [];
    assert UpTo(path, {';'}) == "/";
    assert path[..1] == "/" && path[2..] == params;
  }

  /** `urlparse` splits `;params` off the last path segment, so `http://h/;p` has the path `/`. */
  lemma ParamsAfterRootPath(h: string, params: string)
    requires PlainHost(h)
    requires forall i :: 0 <= i < |params| ==> params[i] !in {'/', '?', '#', '\t', '\r', '\n'}
    ensures Parse("http://" + h + "/;" + params, "") == Some(Parts("http", h, "/", params, "", ""))
  {
    RootParamsPath(params);
    ParseHttpUrl(h, "/;" + params);
    ParamsOfRoot(params);
    Associative("http://" + h, "/;", params);
  }

  lemma ParamsOfRoot(params: string)
    requires '/' !in params
    ensures ParamsOf("http", "/;" + params) == ("/", params)
  {
    assert UsesParams("http");
    SplitParamsAtRoot(params);
  }

  lemma RootParamsPath(params: string)
    requires forall i :: 0 <= i < |params| ==> params[i] !in {'/', '?', '#', '\t', '\r', '\n'}
    ensures '/' !in params
    ensures forall i :: 0 <= i < |"/;" + params| ==> ("/;" + params)[i] !in {'?', '#', '\t', '\r', '\n'}
  {
    var path := "/;" + params;
    forall i | 0 <= i < |path|
      ensures path[i] !in {'?', '#', '\t', '\r', '\n'}
    {
      if i > 1 {
        assert path[i] == params[i - 2];
      }
    }
  }

  /** `urlparse` of a plain absolute path, with the scheme defaulting to `http`. */
  lemma ParsePlainPath(path: string)
    requires PlainPath(path)
    ensures Parse(path, "http") == Some(Parts("http", "", path, "", "", ""))
  {
    assert !(|path| >= 2 && path[..2] == "//") by {
      if |path| >= 2 {
        assert path[..2][1] == path[1];
      }
    }
    ParsePathOnly(path);
  }

  /** `urlparse` of a relative path without a colon, with the scheme defaulting to `http`. */
  lemma ParseRelativePath(path: string)
    requires PlainRelativePath(path)
    ensures Parse(path, "http") == Some(Parts("http", "", path, "", "", ""))
  {
    SanitizeKeeps(path);
    assert ':' !in path;
    assert SplitScheme(path).None?;
    assert SplitNetloc(path) == ("", path);
    ParseFrom(path, "http", "http", path, "", path);
    assert SplitTail(path) == (path, "", "");
  }

  /** `urlunparse` of an `http` URL with a network location and a path only. */
  lemma UnparseHttp(h: string, path: string)
    requires h != [] && (path == [] || path[0] == '/')
    ensures Unparse(Parts("http", h, path, "", "", "")) == "http://" + h + path
  {
  }

  /** Segments without `.` or `..` are joined back together as they are. */
  lemma RejoinWithoutDots(segments: seq<string>)
    requires |segments| >= 1 && NoDotSegments(segments)
    ensures var joined := JoinWith(segments, '/');
      Rejoin(segments) == if joined == "" then "/" else joined
  {
    assert !IsCurrent(segments[|segments| - 1]) && !IsParent(segments[|segments| - 1]);
    assert Resolve([], segments) == segments;
  }

  /** A plain absolute path replaces the empty path of the base and comes out unchanged. */
  lemma MergePlainPath(path: string)
    requires PlainPath(path)
    ensures MergePaths("", path) == path
  {
    assert Segments("", path) == Split(path, '/');
    RejoinWithoutDots(Split(path, '/'));
  }

  /** The segments of a relative path joined onto an empty base path: the root, then the path's own. */
  lemma SegmentsUnderRoot(path: string)
    requires path != [] && path[0] != '/'
    ensures Segments("", path) == FilterMiddle([""] + Split(path, '/'))
  {
    assert Split("", '/') == [""];
  }

  lemma JoinWithRoot(parts: seq<string>, sep: char)
    requires |parts| >= 1
    ensures JoinWith([""] + parts, sep) == [sep] + JoinWith(parts, sep)
  {
    assert ([""] + parts)[1..] == parts;
  }

  /** A plain relative path goes under the root. */
  lemma MergeRelativePath(path: string)
    requires PlainRelativePath(path)
    ensures MergePaths("", path) == "/" + path
  {
    var parts := Split(path, '/');
    SegmentsUnderRoot(path);
    assert parts[0] == UpTo(path, {'/'}) != "";
    RootSegments(parts);
    RejoinWithoutDots([""] + parts);
    JoinWithRoot(parts, '/');
  }

  /** The root's empty segment in front of the segments of a plain relative path adds no inner empty segment and no dot segment. */
  lemma RootSegments(parts: seq<string>)
    requires |parts| >= 1 && parts[0] != ""
    requires NoDotSegments(parts) && NoEmptyInner(parts + [""])
    ensures NoEmptyInner([""] + parts) && NoDotSegments([""] + parts)
  {
    var segments := [""] + parts;
    forall i | 0 < i < |segments| - 1
      ensures segments[i] != ""
    {
      if i > 1 {
        assert segments[i] == (parts + [""])[i - 1];
      }
    }
    forall i | 0 < i < |segments|
      ensures !IsCurrent(segments[i]) && !IsParent(segments[i])
    {
      assert segments[i] == parts[i - 1];
    }
  }

  /** The base URL `http://` + a plain host parses to that host and nothing else. */
  lemma ParseBase(h: string)
    requires PlainHost(h)
    ensures Parse("http://" + h, "") == Some(Parts("http", h, "", "", "", ""))
  {
    ParseHttpUrl(h, "");
    assert "http://" + h + "" == "http://" + h;
  }

  /** Joining onto `http://` + a plain host: a plain absolute path is appended as it is. */
  lemma JoinAbsolutePath(h: string, path: string)
    requires PlainHost(h) && h != []
    requires PlainPath(path)
    ensures Join("http://" + h, path) == Some("http://" + h + path)
  {
    ParseBase(h);
    ParsePlainPath(path);
    JoinMerged("http://" + h, path, Parts("http", h, "", "", "", ""), Parts("http", "", path, "", "", ""));
    MergePlainPath(path);
    UnparseHttp(h, path);
  }

  /** A relative reference whose segments (but possibly the last) are non-empty is joined under the root of the base. */
  lemma JoinRelativePath(h: string, path: string)
    requires PlainHost(h) && h != []
    requires PlainRelativePath(path)
    ensures Join("http://" + h, path) == Some("http://" + h + "/" + path)
  {
    ParseBase(h);
    ParseRelativePath(path);
    JoinMerged("http://" + h, path, Parts("http", h, "", "", "", ""), Parts("http", "", path, "", "", ""));
    MergeRelativePath(path);
    UnparseHttp(h, "/" + path);
    Associative("http://" + h, "/", path);
  }

  /** A reference `//host...` replaces the base's network location: the request goes to another host. */
  lemma JoinNetworkPath(h: string, other: string, path: string)
    requires PlainHost(h) && h != []
    requires PlainHost(other) && other != []
    requires path == [] || PlainPath(path)
    ensures Join("http://" + h, "//" + other + path) == Some("http://" + other + path)
  {
    ParseBase(h);
    ParseNetworkPath(other, path);
    JoinWithNetloc("http://" + h, "//" + other + path, Parts("http", h, "", "", "", ""), Parts("http", other, path, "", "", ""));
    UnparseHttp(other, path);
  }

  /** `urljoin` of two `http` URLs whose reference has a path but no network location merges the paths under the base's network location. */
  lemma JoinMerged(base: string, url: string, b: Parts, u: Parts)
    requires base != [] && url != []
    requires Parse(base, "") == Some(b) && Parse(url, b.scheme) == Some(u)
    requires b.scheme == "http" && u.scheme == "http" && u.netloc == "" && u.path != ""
    ensures Join(base, url) == Some(Unparse(Parts("http", b.netloc, MergePaths(b.path, u.path), u.params, u.query, u.fragment)))
  {
    JoinFrom(base, url, b, u);
    assert UsesRelative("http") && UsesNetloc("http");
  }

  /** `urljoin` of two `http` URLs whose reference has a network location gives the reference, unparsed. */
  lemma JoinWithNetloc(base: string, url: string, b: Parts, u: Parts)
    requires base != [] && url != []
    requires Parse(base, "") == Some(b) && Parse(url, b.scheme) == Some(u)
    requires b.scheme == "http" && u.scheme == "http" && u.netloc != ""
    ensures Join(base, url) == Some(Unparse(u))
  {
    JoinFrom(base, url, b, u);
    assert UsesRelative("http") && UsesNetloc("http");
  }

  /** A reference with a scheme of its own other than `http` is returned as it is. */
  lemma JoinForeignScheme(h: string, url: string)
    requires PlainHost(h)
    requires url != [] && Parse(url, "http").Some? && Parse(url, "http").value.scheme != "http"
    ensures Join("http://" + h, url) == Some(url)
  {
    ParseBase(h);
  }

  /** A reference that `urlparse` rejects makes `urljoin` raise. */
  lemma JoinRejects(h: string, url: string)
    requires PlainHost(h)
    requires url != [] && Parse(url, "http").None?
    ensures Join("http://" + h, url).None?
  {
    ParseBase(h);
  }

  /** A network location with an opening bracket and no closing one makes `urlparse` raise. */
  lemma UnclosedBracketRejected(h: string)
    requires PlainHost(h)
    ensures Parse("http://[" + h, "") == None
  {
    var netloc := "[" + h;
    SplitNetlocPlain(netloc, "");
    assert "//" + netloc + "" == "//" + netloc;
    SchemeOfPlainHttp(netloc);
    assert netloc[0] == '[';
    assert forall i :: 0 <= i < |netloc| ==> netloc[i] != ']';
    Associative("http://", "[", h);
    assert "http://" + "[" == "http://[";
    ParseRejects("http://[" + h, "", "http", "//" + netloc, netloc, "");
  }

  /** The scheme of `http://` + a network location with no tab or line break. */
  lemma SchemeOfPlainHttp(rest: string)
    requires Safe(rest)
    ensures SchemeOf(Sanitize("http://" + rest), "") == ("http", "//" + rest)
  {
    SafeConcat("http://", rest);
    SanitizeKeeps("http://" + rest);
    Associative("http:", "//", rest);
    assert "http:" + "//" == "http://";
    SchemeOfHttp("//" + rest, "");
  }
}

=== FILE: wrappers.dfy ===
/** Optional values and results with an error, used where the source returns None or raises. */
module Wrappers {

  datatype Option<T> = None | Some(value: T)

  datatype Result<T, E> = Success(value: T) | Failure(error: E)
}
